=== FILE: README.md ===
# A Dafny model of the exam-text core of the PDF question extractor

The extractor reads a Korean exam paper (a 수능-style 문제지) and turns it into
records. Its PDF reading, image cropping, UI and exporters are not modelled. This
project models the pure text core between them:

- **Text cleaning** (`clean_text`). Five rewriting passes and then `strip()`:
  - form feeds and U+0001 are deleted;
  - `(cid:N)` tokens are deleted;
  - a run of one repeated Hangul syllable becomes a single syllable;
  - a newline between two non-space characters becomes a space, except when its
    left neighbour is the right neighbour of the newline joined just before it
    (the scan resumes behind that character; see "## Findings");
  - runs of blank lines are shortened to two newlines.
- **Question-type classification** (`classify_question_type`). Six ordered
  pattern tests. The first one that fires gives the tag; otherwise the tag is
  "etc".
- **Passage/question segmentation** (`parse_passage_and_questions`).
  - A two-state scan over the stripped, non-blank lines of a page. Everything
    before the first section-trigger line is passage text.
  - After that line, a line starting with a digit opens a question block.
  - Each block becomes a `Question`:
    - its numbering is removed from the stem;
    - its circled-numeral lines, joined by newlines, become the choice text;
    - its type comes from the classifier;
    - the block is dropped when the stem is shorter than two characters.
- **Records** (`Metadata`, `Question`, `Passage`). Their constructor defaults and
  their `to_dict` plain-data forms.
- **Extraction statistics** (`_calculate_statistics`):
  - one entry per passage;
  - two counter dicts: questions per type and questions per passage.
- **Directory-name sanitising** (`safe_title`).
- **The test-log check** (`check_testlog.py`). Four "bad" patterns, each reported
  at every non-overlapping match that `re.finditer` finds.

The model is written as pure functions over `string` (`seq<char>`) plus one method
with loops (`CalculateStatistics`). Python regular expressions become explicit
predicates and scans. `re.sub` and `re.finditer` are left-to-right scans that
resume after each match. Python dicts become association lists in insertion
order. `to_dict` becomes a `map<string, Value>`.

Module layout, one file per module:

| module | file | models |
|---|---|---|
| `Wrappers` | wrappers.dfy | `Option`, and collecting the present values of a list of options |
| `Text` | text.dfy | `isspace`, `\d`, `[가-힣]`, `strip`, `join`, `split`, `splitlines`, substring search |
| `Dict` | dict.dfy | the plain-data values produced by `to_dict` |
| `QuestionModel` | question.dfy | model/question.py |
| `PassageModel` | passage.dfy | model/passage.py |
| `Classifier` | classifier.dfy | `classify_question_type` |
| `StructuredParser` | structured_parser.dfy | `parse_passage_and_questions` |
| `CleanExtractedText` | clean_text.dfy | `clean_text` |
| `ExtractionStatistics` | statistics.dfy | `_calculate_statistics`, `safe_title` |
| `Finditer` | finditer.dfy | the non-overlapping match scan of `re.finditer` |
| `TestLogCheck` | testlog.dfy | `BAD_PATTERNS`, `check_file` |

## Model

| member | source | states |
|---|---|---|
| `Classifier.Classify` | parser/structured_parser.py:8-22 | the tag returned is one whose test fires on the newline-free text, every earlier test in the fixed order does not fire, and "etc" is returned exactly when none of the six tests fires |
| `Classifier.ReplaceNewlines` | parser/structured_parser.py:9 | the result has the same length, differs only where a newline became a space, and contains no newline |
| `Classifier.ClassifyIgnoresNewlines` | parser/structured_parser.py:9 | a text and the same text with its newlines turned into spaces get the same tag |
| `Classifier.OccurrenceSurvivesNewlines` | parser/structured_parser.py:9-21 | a newline-free literal found in the text is still found at the same position after the newline replacement |
| `Classifier.EmptyParensSurviveNewlines` | parser/structured_parser.py:9-10 | an empty pair of parentheses, holding up to three whitespace characters, still matches after newlines become spaces |
| `Classifier.OxSignalWins` | parser/structured_parser.py:10-11 | "[O/X]" or empty parentheses anywhere make the question "ox", whatever else it contains |
| `Classifier.CircledNumeralMeansMultipleChoice` | parser/structured_parser.py:10-15 | one circled numeral ①..⑤ anywhere is enough for "multiple_choice" when the ox and blank tests do not fire |
| `Classifier.ChoiceListExample` | parser/structured_parser.py:10-15 | "옳은 것은? ①" is classified "multiple_choice" |
| `Classifier.OxExample` | parser/structured_parser.py:10-15 | "[O/X]" wins over circled numerals in the same text |
| `Classifier.SplitBlankExample` | parser/structured_parser.py:9-13 | "들어갈\n말은?" is "blank": the phrase split by a line break is found once the newline becomes a space |
| `StructuredParser.KeptLines` | parser/structured_parser.py:32-35 | the lines the loop acts on are non-empty and have no leading or trailing whitespace |
| `StructuredParser.KeptLinesOfOne` | parser/structured_parser.py:32-35 | one line is kept, in stripped form, exactly when stripping leaves something |
| `StructuredParser.KeptLinesAppend` | parser/structured_parser.py:32-35 | lines are filtered one by one: the kept lines of two runs of lines are those of the first run followed by those of the second |
| `StructuredParser.FirstTrigger` | parser/structured_parser.py:37-39 | it finds the first kept line holding a section-trigger phrase, and no earlier line holds one; when it finds none, no line holds one |
| `StructuredParser.SegmentKept` | parser/structured_parser.py:32-53 | without a trigger line every kept line is passage text and there are no blocks; otherwise the passage is exactly the lines before the trigger, and the blocks, concatenated, are exactly the lines after it (the trigger line is dropped); every block is non-empty, and only its first line may start with a digit, while every block after the first does start with one |
| `StructuredParser.Segment` | parser/structured_parser.py:25-53 | the same partition, stated over the `splitlines()` of the raw page text |
| `StructuredParser.ScanMaintainsInvariant` | parser/structured_parser.py:30-53 | after any prefix of the lines, the scan state agrees with that partition of the prefix |
| `StructuredParser.StepKeepsInvariant` | parser/structured_parser.py:37-50 | one loop iteration (trigger, new block, block extension or passage line) preserves the partition invariant |
| `StructuredParser.PassageLinesAreKept` | parser/structured_parser.py:32-50 | every passage line comes from the page and is a non-empty stripped line |
| `Text.LeadingDigits` | parser/structured_parser.py:67 | the length of the maximal run of digits at the start of a line |
| `StructuredParser.DropNumbering` | parser/structured_parser.py:67 | removing `^\d+[\).]\s*` leaves a suffix of the line; a line without that prefix is unchanged; otherwise the result is strictly shorter and does not start with whitespace |
| `StructuredParser.NumberingRoundTrip` | parser/structured_parser.py:67 | removing the numbering from digits, "." or ")", spaces and a body gives back exactly the body |
| `StructuredParser.StemOf` | parser/structured_parser.py:66-67 | the stem is stripped and no longer than the space-joined block |
| `StructuredParser.ChoiceLines` | parser/structured_parser.py:73 | every choice line holds a circled numeral, and they keep block order (a subsequence of the block); each line with a circled numeral appears as often as in the block, and no other line appears |
| `StructuredParser.ChoicesText` | parser/structured_parser.py:73-74 | `choices_text` is `None` exactly when no line of the block holds a circled numeral |
| `StructuredParser.ChoicesTextSplitsIntoChoiceLines` | parser/structured_parser.py:73-74 | splitting `choices_text` at newlines gives back the choice lines |
| `StructuredParser.AssembleQuestion` | parser/structured_parser.py:58-86 | an assembled question has a stripped stem of at least two characters, type among the seven tags, difficulty "중", no points, no answer, explanation or conditions |
| `StructuredParser.AssembledQuestion` | parser/structured_parser.py:62-86 | a block yields a question exactly when its stem has at least two characters, and then the stem, choice text and type tag are the ones computed from the block |
| `StructuredParser.Outcomes` | parser/structured_parser.py:58-86 | one assembly outcome per block, in block order |
| `StructuredParser.AssembleAll` | parser/structured_parser.py:58-86 | at most one question per block, all of them well formed, and exactly one per block when no block is discarded |
| `StructuredParser.AssembleAllAppend` | parser/structured_parser.py:58-86 | assembling two runs of blocks one after the other gives the concatenation of the two results |
| `StructuredParser.Parse` | parser/structured_parser.py:25-88 | the passage has id "passage_1", no range, instruction or image, and its content is the passage lines joined by newlines; the questions are those assembled from the blocks, in block order, all well formed and no more than the blocks; a page without a trigger line yields no question |
| `StructuredParser.AssembleAllKeepsEveryBlock` | parser/structured_parser.py:58-86 | when every block has a stem of at least two characters, there is one question per block and the i-th question is assembled from the i-th block |
| `StructuredParser.ParseKeepsEveryBlock` | parser/structured_parser.py:58-88 | when every block of a page has a stem of at least two characters, the page yields one question per block, in block order |
| `StructuredParser.JoinOfStrippedLinesIsStripped` | parser/structured_parser.py:55 | joining non-empty stripped lines with newlines gives a stripped text, so the final `strip()` changes nothing |
| `StructuredParser.PassageContentSplitsIntoLines` | parser/structured_parser.py:55 | when there is passage text, splitting the passage content at newlines gives back the passage lines |
| `StructuredParser.KeptLinesAreSingleLines` | parser/structured_parser.py:26-35 | lines from `splitlines()` stay free of line breaks after stripping and blank-line removal |
| `Text.Strip` | parser/structured_parser.py:33 | the result is a contiguous slice with no whitespace at either end, and only whitespace was removed on each side |
| `Text.StripFixpoint` | parser/structured_parser.py:33 | `strip()` leaves a text unchanged exactly when neither end is whitespace |
| `Text.SplitLines` | parser/structured_parser.py:26 | no line contains a line boundary, and the lines concatenated are the text with its line boundaries removed |
| `Text.SplitLinesOfSingleLine` | parser/structured_parser.py:26 | a non-empty text without a line break is one line; the empty text has no lines |
| `Text.SplitLinesAtBoundary` | parser/structured_parser.py:26 | a line followed by one boundary ("\r\n" counts once, "\r" only when no "\n" follows) is split off as exactly one line |
| `Text.SplitLinesOfJoin` | parser/structured_parser.py:26 | lines joined by newlines split back into the same lines, when the last one is not empty |
| `Text.SplitJoinRoundTrip` | parser/structured_parser.py:55 | splitting a separator-joined list of separator-free parts gives back the parts |
| `CleanExtractedText.RemoveControlMarks` | utils/clean_extracted_text.py:5 | no form feed or U+0001 is left, the result is a subsequence of the text, every other character keeps its number of occurrences, and a text without them is unchanged |
| `CleanExtractedText.CidTokenLength` | utils/clean_extracted_text.py:6 | a positive length is a real token: "(cid:", one or more digits, ")"; with `CidTokenLengthOfToken`, every real token is recognised with its full length |
| `CleanExtractedText.CidTokenLengthOfToken` | utils/clean_extracted_text.py:6 | "(cid:", a non-empty digit run and ")" at the start of the text is recognised as a token of exactly that length, whatever follows |
| `CleanExtractedText.RemoveCidTokens` | utils/clean_extracted_text.py:6 | the result is a subsequence of the text, no control mark is introduced, and a first character that does not start a `(cid:N)` token is kept |
| `CleanExtractedText.RemoveCidTokensDeletesToken` | utils/clean_extracted_text.py:6 | text before the first `(cid:N)` token is kept, the token is deleted, and the scan goes on behind it |
| `CleanExtractedText.RemoveCidTokensAtToken` | utils/clean_extracted_text.py:6 | a text that starts with a `(cid:N)` token loses exactly that token |
| `CleanExtractedText.RemoveCidTokensKeepsOtherChars` | utils/clean_extracted_text.py:6 | every character that cannot belong to a `(cid:N)` token keeps its number of occurrences |
| `CleanExtractedText.RemoveCidTokensFixpoint` | utils/clean_extracted_text.py:6 | a text with no `(cid:N)` token is unchanged |
| `CleanExtractedText.RemoveCidTokensExample` | utils/clean_extracted_text.py:6 | "가(cid:12)나" becomes "가나" |
| `CleanExtractedText.CollapseRepeats` | utils/clean_extracted_text.py:7 | no Hangul syllable is left next to a copy of itself; the result is a subsequence of the text with the same non-Hangul characters in the same order; the first character is kept; no control mark is introduced |
| `CleanExtractedText.CollapseRepeatsOfRun` | utils/clean_extracted_text.py:7 | a run of n ≥ 1 copies of one Hangul syllable, not followed by that syllable, becomes one copy |
| `CleanExtractedText.CollapseRepeatsKeepsOther` | utils/clean_extracted_text.py:7 | a character that is not a Hangul syllable is kept in front of the collapsed rest |
| `CleanExtractedText.CollapseRepeatsFixpoint` | utils/clean_extracted_text.py:7 | a text without a doubled syllable is unchanged |
| `CleanExtractedText.UnwrapLines` | utils/clean_extracted_text.py:8 | the pass only turns some newlines into spaces; the length and every other character are kept |
| `CleanExtractedText.UnwrapLinesRewritesNonOverlapping` | utils/clean_extracted_text.py:8 | a position changes exactly when it holds a newline between two non-space characters and the newline two places before it was not rewritten (that match used up its left neighbour) |
| `CleanExtractedText.UnwrapLinesRewritesOnlyJoinable` | utils/clean_extracted_text.py:8 | every character the pass changes is an inner newline with a non-space character on both sides |
| `CleanExtractedText.UnwrapLinesMissesSingleCharacterLine` | utils/clean_extracted_text.py:8 | "가\n나\n다" becomes "가 나\n다", leaving a newline between two non-space characters |
| `CleanExtractedText.UnwrapLinesIntended` | utils/clean_extracted_text.py:8 | it too only turns newlines into spaces, and no newline between two non-space characters survives |
| `CleanExtractedText.UnwrapLinesIntendedRewritesOnlyJoinable` | utils/clean_extracted_text.py:8 | every character the intended pass changes is an inner newline with a non-space character on both sides |
| `CleanExtractedText.UnwrapLinesIntendedJoinsEveryLine` | utils/clean_extracted_text.py:8 | "가\n나\n다" becomes "가 나 다" |
| `CleanExtractedText.UnwrapLinesWithoutNewline` | utils/clean_extracted_text.py:8 | a text without newlines is unchanged by either version of the pass |
| `CleanExtractedText.SqueezeNewlines` | utils/clean_extracted_text.py:9 | no three newlines in a row are left; the text does not grow; the first character is kept; it starts with two newlines exactly when the input does |
| `CleanExtractedText.SqueezeNewlinesOfRun` | utils/clean_extracted_text.py:9 | a run of n newlines becomes min(n, 2) newlines |
| `CleanExtractedText.SqueezeNewlinesOfRunThen` | utils/clean_extracted_text.py:9 | a run of n newlines followed by another character becomes min(n, 2) newlines, that character, and the squeezed rest |
| `CleanExtractedText.SqueezeNewlinesOnlyDropsNewlines` | utils/clean_extracted_text.py:9 | apart from newlines the text is unchanged |
| `CleanExtractedText.SqueezeNewlinesFixpoint` | utils/clean_extracted_text.py:9 | a text without three newlines in a row is unchanged |
| `CleanExtractedText.SqueezeNewlinesKeepsProperties` | utils/clean_extracted_text.py:9 | shortening newline runs introduces neither a control mark nor a doubled syllable |
| `CleanExtractedText.Prepare` | utils/clean_extracted_text.py:5-7 | after the first three passes there is no control mark and no doubled syllable, and the text did not grow |
| `CleanExtractedText.FinishIsClean` | utils/clean_extracted_text.py:8-10 | the last two passes and `strip()` keep those properties and add stripped ends and no triple newline |
| `CleanExtractedText.CleanText` | utils/clean_extracted_text.py:4-10 | the cleaned text has no control mark, no doubled Hangul syllable, no three newlines in a row, no whitespace at either end, and is no longer than the input |
| `CleanExtractedText.CleanTextIntended` | utils/clean_extracted_text.py:4-10 | the same guarantees with the corrected line-joining pass |
| `CleanExtractedText.CleanTextFixpoint` | utils/clean_extracted_text.py:4-10 | a stripped single-line text that is already clean comes back unchanged from both versions |
| `QuestionModel.NewQuestion` | model/question.py:17-31 | every field is stored as given; missing metadata becomes type "etc", difficulty "중", no points |
| `QuestionModel.MetadataToDict` | model/question.py:9-14 | the dict has exactly the keys "type", "difficulty", "points" |
| `QuestionModel.MetadataDictRoundTrip` | model/question.py:9-14 | reading the dict back gives the same metadata |
| `QuestionModel.QuestionToDict` | model/question.py:33-41 | exactly six keys, each field stored under its key, and the metadata nested as its own dict |
| `QuestionModel.QuestionDictRoundTrip` | model/question.py:33-41 | reading the dict back gives the same question, metadata included |
| `QuestionModel.ReadQuestionFields` | model/question.py:33-41 | any dict whose six entries encode a question's fields reads back as that question |
| `PassageModel.NewPassage` | model/passage.py:4-9 | fields are stored as given; a missing or empty id becomes "passage_1", so the id is never empty |
| `PassageModel.PassageToDict` | model/passage.py:11-18 | the dict has exactly the five keys and exposes the id under "id" |
| `PassageModel.PassageDictRoundTrip` | model/passage.py:11-18 | reading the dict back gives the same passage |
| `ExtractionStatistics.StatOf` | utils/suneung_extractor.py:95-101 | a passage entry carries the id and range; both its word count and its character count are the content length |
| `ExtractionStatistics.CalculateStatistics` | utils/suneung_extractor.py:86-112 | one entry per passage, in order; both counters have distinct keys and positive counts; each key's count is how often that type (or passage id, or "unknown") occurs among the questions; each counter's total is the number of questions; each counter is exactly the `Tally` of its keys taken in question order, where a key seen for the first time is appended at the end (`BumpKeys`) |
| `ExtractionStatistics.Bump` | utils/suneung_extractor.py:106 | `get(k, 0) + 1` raises the count of `k` by one and leaves every other key's count alone |
| `ExtractionStatistics.BumpKeys` | utils/suneung_extractor.py:106 | the key set grows by exactly `k`, and a new key is appended at the end (dict insertion order) |
| `ExtractionStatistics.BumpTotal` | utils/suneung_extractor.py:106 | the sum of the counts grows by one |
| `ExtractionStatistics.BumpWellFormed` | utils/suneung_extractor.py:106 | distinct keys and positive counts are preserved |
| `ExtractionStatistics.KeysAreCounted` | utils/suneung_extractor.py:106 | in a well-formed counter, a key is present exactly when its count is positive |
| `ExtractionStatistics.Tally` | utils/suneung_extractor.py:104-110 | counting a list of keys gives a well-formed counter |
| `ExtractionStatistics.TallyCounts` | utils/suneung_extractor.py:104-110 | each key's count is its multiplicity in the list, and the total is the list's length |
| `ExtractionStatistics.PassageKey` | utils/suneung_extractor.py:109 | a missing or empty passage id is counted as "unknown"; any other id is counted under itself |
| `ExtractionStatistics.KeepTitleChars` | utils/suneung_extractor.py:34 | only alphanumerics, space, "-" and "_" are kept, in order; each of them keeps its number of occurrences and every other character is removed; a title made only of them is unchanged |
| `ExtractionStatistics.SafeTitle` | utils/suneung_extractor.py:34 | the directory name uses only allowed characters, is a subsequence of the title, does not end in a space, and is the kept characters with only their trailing spaces removed |
| `ExtractionStatistics.SafeTitleFixpoint` | utils/suneung_extractor.py:34 | a title is its own safe title exactly when it uses only allowed characters and does not end in whitespace |
| `ExtractionStatistics.SafeTitleIdempotent` | utils/suneung_extractor.py:34 | sanitising twice is the same as sanitising once |
| `Finditer.Scan` | check_testlog.py:20-22 | every reported match starts at or after the scan start and is a match there; the matches come in order and do not overlap |
| `Finditer.ScanCovers` | check_testlog.py:20 | every position where the pattern matches lies inside some reported match |
| `Finditer.ScanEmpty` | check_testlog.py:20 | nothing is reported exactly when the pattern matches nowhere |
| `TestLogCheck.SpaceRun` | check_testlog.py:10 | the maximal run of whitespace from a position |
| `TestLogCheck.CharRun` | check_testlog.py:11 | the maximal run of one character from a position |
| `TestLogCheck.MatchLength` | check_testlog.py:8-11 | a literal matches exactly where it occurs, with its own length; a bracket match is an opening bracket, whitespace only, then a closing bracket; a syllable match is a Hangul syllable whose run is at least `1 + extra` copies long, matched in full |
| `TestLogCheck.CheckContentReportsLiteral` | check_testlog.py:8-9 | every occurrence of "현존재쌤" or "(cid:127)" lies inside a reported issue whose text is that literal |
| `TestLogCheck.MatchTable` | check_testlog.py:19-20 | the match length of a pattern at every position, each within the text |
| `TestLogCheck.FindAll` | check_testlog.py:20-22 | each issue's text is the non-empty slice of the content at its position; issues are strictly increasing and do not overlap |
| `TestLogCheck.FindAllSound` | check_testlog.py:20-22 | for every reported issue, the pattern's match at its position is exactly the issue's text |
| `TestLogCheck.FindAllCovers` | check_testlog.py:20-22 | every position where the pattern matches is covered by a reported issue |
| `TestLogCheck.FindAllEmpty` | check_testlog.py:20-22 | no issue is reported exactly when the pattern matches nowhere |
| `TestLogCheck.CheckWith` | check_testlog.py:15-23 | every issue's text is the content at its position |
| `TestLogCheck.CheckWithEmpty` | check_testlog.py:15-23 | the list is empty exactly when no pattern of the table matches anywhere |
| `TestLogCheck.CheckWithIncludes` | check_testlog.py:19-22 | every match of every pattern appears among the issues |
| `TestLogCheck.CheckContent` | check_testlog.py:7-23 | every issue reported for the four bad patterns is located in the content |
| `TestLogCheck.CheckContentGroupsByPattern` | check_testlog.py:19-22 | the issues are the matches of the first pattern, then the second, the third and the fourth |
| `TestLogCheck.EmptyBracketsMatch` | check_testlog.py:10 | an opening bracket, whitespace and a closing bracket match in full |
| `TestLogCheck.MixedBracketsExample` | check_testlog.py:10 | "(]" is reported, since the classes do not pair the brackets |
| `TestLogCheck.DoubledSyllableNotMatched` | check_testlog.py:11 | a syllable that appears exactly twice in a row is not matched by `\1{2,}` |
| `TestLogCheck.DoubledSyllablesPassUnflagged` | check_testlog.py:11 | "현현존존", the comment's own example, produces no issue at all |
| `TestLogCheck.CheckContentIntended` | check_testlog.py:7-23 | with the fourth pattern corrected to `\1{1,}`, every issue is still located in the content |
| `TestLogCheck.IntendedFlagsEveryDoubledSyllable` | check_testlog.py:11 | under the corrected pattern, every doubled Hangul syllable lies inside one reported match |
| `TestLogCheck.IntendedCheckFlagsEveryDoubledSyllable` | check_testlog.py:11 | the corrected check reports, for every doubled syllable, an issue covering both copies |
| `TestLogCheck.IntendedTableAgreesOnLongRuns` | check_testlog.py:11 | wherever the original pattern matches, the corrected one matches the same run |
| `TestLogCheck.IntendedFlagsDoubledSyllables` | check_testlog.py:11 | the corrected pattern reports "현현" at 0 and "존존" at 2 |

## Left out

- PDF text extraction, image cropping, the Streamlit and command-line front ends, and the JSON/DOCX exporters are not part of this model. File reading and writing are left out too. `check_file` is modelled on the file's content string, and `clean_text`'s `main` is not modelled.
- `parse_all_passages_and_questions` is not part of this model. It is the function `SuneungExtractor` actually calls, and its source is not among the modelled files.
- `SuneungExtractor.extract_from_pdf`, `_create_result_dict` and the file-saving helpers are left out. They are I/O plus calls into the parts above.
- `ExtractionStatistics.CalculateStatistics` takes `LinkedQuestion` records (a question plus an optional passage id), not bare `Question`s. `Question` in model/question.py has no `passage_id` attribute, while `_calculate_statistics` reads `question.passage_id`. That attribute must come from the missing parser.
- `Text.IsDigit`: `\d` is restricted to ASCII digits. Python also accepts other Unicode decimal digits in the question-number patterns.
- `Text.IsAlnum`: `str.isalnum()` is approximated by ASCII letters and digits, Hangul syllables and Hangul compatibility jamo. Other scripts' letters and digits are dropped by this `SafeTitle`, but Python keeps them.
- `TestLogCheck.MatchLength`: an empty `Literal` is treated as matching nowhere. Python's `finditer` would report an empty match at every position, but no entry of `BAD_PATTERNS` is empty.
- The regular expressions are replaced by explicit predicates, one per pattern. Backtracking and the `re` engine itself are not modelled. Only the leftmost match at each position is used, as `re` does for these patterns.
- The blank-line `continue` of the parser loop is folded into `KeptLines`, which removes blank lines before the scan. This does not change the result: a skipped line changes no state.
- `ExtractionStatistics.StatOf`: `word_count` is stated as the source computes it (`len(content)`, the same as `char_count`), not as a count of words.

## Findings

| source | as written | input that shows it | evidently intended | confidence | as-written member | corrected member |
|---|---|---|---|---|---|---|
| utils/clean_extracted_text.py:8 | `re.sub(r'([^\s])\n([^\s])', r'\1 \2', text)` consumes the character after the newline, so the next newline's left neighbour is already used and the following match cannot start there | "가\n나\n다" becomes "가 나\n다" | every newline between two non-space characters becomes a space ("가 나 다"); this needs a lookahead for the right character | high (not executed) | `CleanExtractedText.UnwrapLinesMissesSingleCharacterLine` | `CleanExtractedText.UnwrapLinesIntended` |
| check_testlog.py:11 | `([가-힣])\1{2,}` needs the syllable to occur at least three times in a row | "현현존존", the example in the line's own comment, yields no issue | flag a syllable that appears twice or more in a row (`\1{1,}`); the line's own comment gives "현현존존" as an example to be flagged | medium (not executed) | `TestLogCheck.DoubledSyllablesPassUnflagged` | `TestLogCheck.IntendedCheckFlagsEveryDoubledSyllable` |

=== FILE: classifier.dfy ===
/**
 `classify_question_type` of parser/structured_parser.py: newlines become spaces,
 then six pattern tests are tried in a fixed order and the first that matches
 decides the tag; "etc" is the fallback.
 */
module Classifier {
  import opened Text

  datatype QuestionType = Ox | Blank | MultipleChoice | Subjective | Conditional | Composite | Etc {

    /** The tag string stored in `Metadata.type`; distinct types have distinct tags. */
    function Name(): (n: string)
      ensures n in TypeNames
    {
      match this
      case Ox => "ox"
      case Blank => "blank"
      case MultipleChoice => "multiple_choice"
      case Subjective => "subjective"
      case Conditional => "conditional"
      case Composite => "composite"
      case Etc => "etc"
    }
  }

  const TypeNames: set<string> :=
    {"ox", "blank", "multiple_choice", "subjective", "conditional", "composite", "etc"}

  /** The tests in the order they are tried; `Etc` is what is left when none matches. */
  const Priority: seq<QuestionType> := [Ox, Blank, MultipleChoice, Subjective, Conditional, Composite]

  /** Position of a tag in `Priority` (`Etc` comes after all of them). */
  function Rank(q: QuestionType): (k: nat)
    ensures q != Etc ==> k < |Priority| && Priority[k] == q
    ensures q == Etc ==> k == |Priority|
  {
    match q
    case Ox => 0
    case Blank => 1
    case MultipleChoice => 2
    case Subjective => 3
    case Conditional => 4
    case Composite => 5
    case Etc => 6
  }

  // ---------------------------------------------------------------------------
  // The individual tests
  // ---------------------------------------------------------------------------

  /** The regex `\(\s{0,3}\)` matches at index `i`: an opening parenthesis, at most
      three whitespace characters, a closing parenthesis. */
  predicate EmptyParensAt(t: string, i: int) {
    && 0 <= i < |t|
    && t[i] == '('
    && exists c :: i < c <= i + 4 && c < |t| && t[c] == ')' && forall j :: i < j < c ==> IsSpace(t[j])
  }

  predicate HasEmptyParens(t: string) {
    exists i :: 0 <= i < |t| && EmptyParensAt(t, i)
  }

  /** `\(\s{0,3}\)|\[O/X\]` */
  predicate OxSignal(t: string) {
    HasEmptyParens(t) || Contains(t, "[O/X]")
  }

  /** `_{2,}|빈칸|들어갈 말` */
  predicate BlankSignal(t: string) {
    Contains(t, "__") || Contains(t, "빈칸") || Contains(t, "들어갈 말")
  }

  /** `서술하시오|설명하시오|쓰시오|30자|50자` */
  predicate SubjectiveSignal(t: string) {
    ContainsAny(t, ["서술하시오", "설명하시오", "쓰시오", "30자", "50자"])
  }

  /** `보기|㉠|조건|자료` */
  predicate ConditionalSignal(t: string) {
    ContainsAny(t, ["보기", "㉠", "조건", "자료"])
  }

  /** `ㄱ|ㄴ|ㄷ` */
  predicate CompositeSignal(t: string) {
    ContainsAny(t, ["ㄱ", "ㄴ", "ㄷ"])
  }

  /** The test that stands for tag `q` (the fallback `Etc` always fires). */
  predicate Fires(q: QuestionType, t: string) {
    match q
    case Ox => OxSignal(t)
    case Blank => BlankSignal(t)
    case MultipleChoice => HasCircledNumeral(t)
    case Subjective => SubjectiveSignal(t)
    case Conditional => ConditionalSignal(t)
    case Composite => CompositeSignal(t)
    case Etc => true
  }

  // ---------------------------------------------------------------------------
  // Classification
  // ---------------------------------------------------------------------------

  /** `text.replace("\n", " ")` */
  function ReplaceNewlines(t: string): (r: string)
    ensures |r| == |t|
    ensures forall i :: 0 <= i < |t| ==> r[i] == t[i] || (t[i] == '\n' && r[i] == ' ')
    ensures forall i :: 0 <= i < |r| ==> r[i] != '\n'
  {
    if |t| == 0 then [] else [if t[0] == '\n' then ' ' else t[0]] + ReplaceNewlines(t[1..])
  }

  /** The tag of a block of question text: the first test in `Priority` that matches
      the newline-free text wins, and "etc" is returned exactly when none matches. */
  function Classify(text: string): (r: QuestionType)
    ensures r != Etc ==> Fires(r, ReplaceNewlines(text))
    ensures forall j :: 0 <= j < Rank(r) ==> !Fires(Priority[j], ReplaceNewlines(text))
    ensures r == Etc <==> forall j :: 0 <= j < |Priority| ==> !Fires(Priority[j], ReplaceNewlines(text))
  {
    var t := ReplaceNewlines(text);
    var r :=
      if OxSignal(t) then Ox
      else if BlankSignal(t) then Blank
      else if HasCircledNumeral(t) then MultipleChoice
      else if SubjectiveSignal(t) then Subjective
      else if ConditionalSignal(t) then Conditional
      else if CompositeSignal(t) then Composite
      else Etc;
    assert r != Etc ==> Fires(Priority[Rank(r)], t);
    r
  }

  // ---------------------------------------------------------------------------
  // Properties
  // ---------------------------------------------------------------------------

  lemma {:induction false} ReplaceNewlinesIdempotent(t: string)
    ensures ReplaceNewlines(ReplaceNewlines(t)) == ReplaceNewlines(t)
  {
    if |t| > 0 {
      ReplaceNewlinesIdempotent(t[1..]);
      assert ReplaceNewlines(t)[1..] == ReplaceNewlines(t[1..]);
    }
  }

  /** Classification ignores line structure: a text and the same text with every
      newline turned into a space get the same tag. */
  lemma ClassifyIgnoresNewlines(t: string)
    ensures Classify(t) == Classify(ReplaceNewlines(t))
  {
    ReplaceNewlinesIdempotent(t);
  }

  /** A literal that contains no newline is still found once newlines become spaces. */
  lemma OccurrenceSurvivesNewlines(t: string, pat: string, i: int)
    requires OccursAt(t, pat, i)
    requires forall k :: 0 <= k < |pat| ==> pat[k] != '\n'
    ensures OccursAt(ReplaceNewlines(t), pat, i)
  {
    var r := ReplaceNewlines(t);
    forall k | 0 <= k < |pat|
      ensures r[i + k] == pat[k]
    {
      assert t[i + k] == pat[k];
    }
    assert r[i..i + |pat|] == pat;
  }

  /** An empty pair of parentheses stays empty once newlines become spaces. */
  lemma EmptyParensSurviveNewlines(t: string, i: int)
    requires EmptyParensAt(t, i)
    ensures EmptyParensAt(ReplaceNewlines(t), i)
  {
    var r := ReplaceNewlines(t);
    var c :| i < c <= i + 4 && c < |t| && t[c] == ')' && forall j :: i < j < c ==> IsSpace(t[j]);
    assert r[c] == ')';
    assert forall j :: i < j < c ==> IsSpace(r[j]);
  }

  /** An "[O/X]" tag or an empty pair of parentheses makes a question "ox", whatever
      else (circled numerals, blanks, directives) the text contains. */
  lemma OxSignalWins(t: string)
    requires Contains(t, "[O/X]") || HasEmptyParens(t)
    ensures Classify(t) == Ox
  {
    if Contains(t, "[O/X]") {
      var i :| 0 <= i <= |t| && OccursAt(t, "[O/X]", i);
      OccurrenceSurvivesNewlines(t, "[O/X]", i);
      assert 0 <= i <= |ReplaceNewlines(t)|;
    } else {
      var i :| 0 <= i < |t| && EmptyParensAt(t, i);
      EmptyParensSurviveNewlines(t, i);
    }
  }

  /** A single circled numeral anywhere is enough for "multiple_choice", as long as
      neither an ox nor a blank test matches. */
  lemma CircledNumeralMeansMultipleChoice(t: string, i: int)
    requires 0 <= i < |t| && IsCircledNumeral(t[i])
    requires !OxSignal(ReplaceNewlines(t)) && !BlankSignal(ReplaceNewlines(t))
    ensures Classify(t) == MultipleChoice
  {
    assert ReplaceNewlines(t)[i] == t[i];
  }

  lemma {:induction false} ReplaceNewlinesKeepsSingleLine(t: string)
    requires forall i :: 0 <= i < |t| ==> t[i] != '\n'
    ensures ReplaceNewlines(t) == t
  {
    if |t| > 0 {
      ReplaceNewlinesKeepsSingleLine(t[1..]);
    }
  }

  /** A pattern whose first character never occurs in `t` does not occur in `t`. */
  lemma AbsentLeadCharacter(t: string, pat: string)
    requires |pat| > 0
    requires forall i :: 0 <= i < |t| ==> t[i] != pat[0]
    ensures !Contains(t, pat)
  {
    forall i | 0 <= i <= |t|
      ensures !OccursAt(t, pat, i)
    {
      if i + |pat| <= |t| {
        assert t[i..i + |pat|][0] != pat[0];
      }
    }
  }

  /** Worked example: a choice list with no ox or blank signal is "multiple_choice". */
  lemma ChoiceListExample()
    ensures Classify("옳은 것은? ①") == MultipleChoice
  {
    var t := "옳은 것은? ①";
    ReplaceNewlinesKeepsSingleLine(t);
    ChoiceListHasNoOxSignal(t);
    ChoiceListHasNoBlankSignal(t);
    CircledNumeralMeansMultipleChoice(t, 7);
  }

  lemma ChoiceListHasNoOxSignal(t: string)
    requires t == "옳은 것은? ①"
    ensures !OxSignal(t)
  {
    assert forall i :: 0 <= i < |t| ==> t[i] != '(' && t[i] != '[';
    AbsentLeadCharacter(t, "[O/X]");
  }

  lemma ChoiceListHasNoBlankSignal(t: string)
    requires t == "옳은 것은? ①"
    ensures !BlankSignal(t)
  {
    assert forall i :: 0 <= i < |t| ==> t[i] != '_' && t[i] != '빈' && t[i] != '들';
    AbsentLeadCharacter(t, "__");
    AbsentLeadCharacter(t, "빈칸");
    AbsentLeadCharacter(t, "들어갈 말");
  }

  /** Worked example: "[O/X]" wins over the circled numerals in the same text. */
  lemma OxExample()
    ensures Classify("[O/X] ① 옳다 ② 틀리다") == Ox
  {
    OxSignalWins("[O/X] ① 옳다 ② 틀리다") by {
      assert OccursAt("[O/X] ① 옳다 ② 틀리다", "[O/X]", 0);
    }
  }

  /** Worked example: "들어갈 말" split over two lines still reads as a blank item. */
  lemma SplitBlankExample()
    ensures Classify("들어갈\n말은?") == Blank
  {
    var t := ReplaceNewlines("들어갈\n말은?");
    assert t == "들어갈 말은?";
    assert OccursAt(t, "들어갈 말", 0);
    assert forall i :: 0 <= i < |t| ==> t[i] != '(' && t[i] != '[';
    AbsentLeadCharacter(t, "[O/X]");
  }
}

=== FILE: clean_text.dfy ===
/**
 `clean_text` of utils/clean_extracted_text.py: five rewriting passes over text
 extracted from a PDF, then `strip()`.

   1. delete form feeds and U+0001;
   2. delete every `(cid:<digits>)` token;
   3. collapse a run of one repeated Hangul syllable to a single syllable;
   4. turn a newline between two non-space characters into a space;
   5. shorten every run of two or more newlines to exactly two.

 Each `re.sub` pass is a left-to-right scan that resumes after the end of the
 previous match, and each function below follows that scan.
 */
module CleanExtractedText {
  import opened Text

  // ---------------------------------------------------------------------------
  // Properties of the output
  // ---------------------------------------------------------------------------

  /** The two characters pass 1 deletes: form feed (page break) and U+0001. */
  predicate IsControlMark(c: char) {
    c == '\U{000C}' || c == '\U{0001}'
  }

  predicate NoControlMarks(s: string) {
    forall i :: 0 <= i < |s| ==> !IsControlMark(s[i])
  }

  /** No Hangul syllable is immediately followed by the same syllable. */
  predicate NoRepeatedSyllable(s: string) {
    forall i :: 0 <= i < |s| - 1 ==> !(IsHangulSyllable(s[i]) && s[i + 1] == s[i])
  }

  /** No three newlines in a row. */
  predicate NoTripleNewline(s: string) {
    forall i :: 0 <= i < |s| - 2 ==> !(s[i] == '\n' && s[i + 1] == '\n' && s[i + 2] == '\n')
  }

  predicate NoNewline(s: string) {
    forall i :: 0 <= i < |s| ==> s[i] != '\n'
  }

  /** `r` is `s` with some newlines turned into spaces and nothing else changed. */
  predicate NewlinesToSpacesOnly(s: string, r: string) {
    && |r| == |s|
    && forall i :: 0 <= i < |s| ==> r[i] == s[i] || (s[i] == '\n' && r[i] == ' ')
  }

  // ---------------------------------------------------------------------------
  // Pass 1: text.replace('\x0c', '').replace('\x01', '')
  // ---------------------------------------------------------------------------

  /** Pass 1 deletes the marks and keeps every other character, in order and with
      its multiplicity. */
  function RemoveControlMarks(s: string): (r: string)
    ensures NoControlMarks(r)
    ensures |r| <= |s|
    ensures NoControlMarks(s) ==> r == s
    ensures IsSubsequence(r, s)
    ensures forall c :: !IsControlMark(c) ==> multiset(r)[c] == multiset(s)[c]
  {
    if |s| == 0 then []
    else
      var rest := RemoveControlMarks(s[1..]);
      assert s == [s[0]] + s[1..];
      if IsControlMark(s[0]) then
        SubsequenceOfTail(rest, s);
        rest
      else
        var r := [s[0]] + rest;
        assert r[1..] == rest;
        r
  }

  // ---------------------------------------------------------------------------
  // Pass 2: re.sub(r'\(cid:[0-9]+\)', '', text)
  // ---------------------------------------------------------------------------

  /** The length of the `(cid:<digits>)` token at the start of `s`, or 0 if there is none.
      A positive length is a real token: "(cid:", one or more digits, ")". The converse,
      that every real token is recognised with its full length, is CidTokenLengthOfToken. */
  function CidTokenLength(s: string): (n: nat)
    ensures n <= |s|
    ensures n == 0 || n >= 7
    ensures n > 0 ==> s[..5] == "(cid:" && s[n - 1] == ')'
    ensures n > 0 ==> forall i :: 5 <= i < n - 1 ==> IsDigit(s[i])
  {
    if |s| >= 5 && s[..5] == "(cid:" then
      var d := LeadingDigits(s[5..]);
      if d > 0 && 5 + d < |s| && s[5 + d] == ')' then 6 + d else 0
    else 0
  }

  /** No `(cid:<digits>)` token starts anywhere in `s`. */
  predicate NoCidToken(s: string) {
    forall i :: 0 <= i < |s| ==> CidTokenLength(s[i..]) == 0
  }

  /** Pass 2 only deletes characters: the result is a subsequence of the input, and
      a first character that does not start a token is kept. */
  function RemoveCidTokens(s: string): (r: string)
    ensures |r| <= |s|
    ensures NoControlMarks(s) ==> NoControlMarks(r)
    ensures IsSubsequence(r, s)
    ensures |s| > 0 && CidTokenLength(s) == 0 ==> |r| > 0 && r[0] == s[0]
    decreases |s|
  {
    if |s| == 0 then []
    else
      var n := CidTokenLength(s);
      if n > 0 then
        var r := RemoveCidTokens(s[n..]);
        SubsequenceOfSuffix(r, s, n);
        r
      else
        var rest := RemoveCidTokens(s[1..]);
        var r := [s[0]] + rest;
        assert r[1..] == rest;
        r
  }

  /** The characters a `(cid:<digits>)` token is made of. */
  predicate IsCidChar(c: char) {
    c == '(' || c == 'c' || c == 'i' || c == 'd' || c == ':' || c == ')' || IsDigit(c)
  }

  lemma CidTokenChars(s: string)
    ensures forall i :: 0 <= i < CidTokenLength(s) ==> IsCidChar(s[i])
  {
    var n := CidTokenLength(s);
    if n > 0 {
      var d := LeadingDigits(s[5..]);
      forall i | 0 <= i < n ensures IsCidChar(s[i]) {
        if i < 5 {
          assert s[i] == s[..5][i];
        } else if i < 5 + d {
          assert s[i] == s[5..][i - 5];
        }
      }
    }
  }

  /** A token holds no character other than token characters. */
  lemma CidTokenHasOnlyCidChars(s: string)
    ensures forall c :: !IsCidChar(c) ==> multiset(s[..CidTokenLength(s)])[c] == 0
  {
    var n := CidTokenLength(s);
    CidTokenChars(s);
    forall c | !IsCidChar(c) ensures multiset(s[..n])[c] == 0 {
      assert forall i :: 0 <= i < n ==> s[..n][i] == s[i];
      assert c !in s[..n];
    }
  }

  /** Pass 2 deletes nothing but token characters: every other character keeps its
      number of occurrences. */
  lemma {:induction false} RemoveCidTokensKeepsOtherChars(s: string)
    ensures forall c :: !IsCidChar(c) ==> multiset(RemoveCidTokens(s))[c] == multiset(s)[c]
    decreases |s|
  {
    if |s| > 0 {
      var n := CidTokenLength(s);
      if n > 0 {
        RemoveCidTokensKeepsOtherChars(s[n..]);
        CidTokenHasOnlyCidChars(s);
        assert s == s[..n] + s[n..];
      } else {
        RemoveCidTokensKeepsOtherChars(s[1..]);
        assert s == [s[0]] + s[1..];
      }
    }
  }

  /** No `(cid:<digits>)` token starts in `s` before index `n`. */
  predicate NoTokenBefore(s: string, n: int) {
    forall i :: 0 <= i < n && i <= |s| ==> CidTokenLength(s[i..]) == 0
  }

  /** The token `(cid:<digits>)`. */
  function CidToken(digits: string): (t: string)
    ensures |t| == |digits| + 6
  {
    "(cid:" + digits + ")"
  }

  lemma CidTokenLengthOfToken(digits: string, b: string)
    requires |digits| > 0 && forall i :: 0 <= i < |digits| ==> IsDigit(digits[i])
    ensures CidTokenLength(CidToken(digits) + b) == |digits| + 6
  {
    var s := CidToken(digits) + b;
    assert s[..5] == "(cid:";
    assert s[5..] == digits + ([')'] + b);
    LeadingDigitsOfToken(digits, [')'] + b);
    assert s[5 + |digits|] == ')';
  }

  /** Pass 2 deletes every token: text up to the first token is kept, the token goes,
      and the scan resumes behind it. */
  lemma {:induction false} RemoveCidTokensDeletesToken(a: string, digits: string, b: string)
    requires |digits| > 0 && forall i :: 0 <= i < |digits| ==> IsDigit(digits[i])
    requires NoTokenBefore(a + CidToken(digits) + b, |a|)
    ensures RemoveCidTokens(a + CidToken(digits) + b) == a + RemoveCidTokens(b)
    decreases |a|
  {
    var s := a + CidToken(digits) + b;
    if |a| == 0 {
      assert s == CidToken(digits) + b;
      RemoveCidTokensAtToken(digits, b);
    } else {
      NoTokenBeforeTail(s, |a|);
      ConsOfConcat(a, CidToken(digits), b, RemoveCidTokens(b));
      RemoveCidTokensDeletesToken(a[1..], digits, b);
    }
  }

  lemma ConsOfConcat<T>(a: seq<T>, x: seq<T>, y: seq<T>, z: seq<T>)
    requires |a| > 0
    ensures (a + x + y)[0] == a[0] && (a + x + y)[1..] == a[1..] + x + y
    ensures [a[0]] + (a[1..] + z) == a + z
  {
  }

  lemma RemoveCidTokensAtToken(digits: string, b: string)
    requires |digits| > 0 && forall i :: 0 <= i < |digits| ==> IsDigit(digits[i])
    ensures RemoveCidTokens(CidToken(digits) + b) == RemoveCidTokens(b)
  {
    var s := CidToken(digits) + b;
    CidTokenLengthOfToken(digits, b);
    assert s[|digits| + 6..] == b;
  }

  lemma NoTokenBeforeTail(s: string, n: int)
    requires 0 < n <= |s| && NoTokenBefore(s, n)
    ensures CidTokenLength(s) == 0
    ensures RemoveCidTokens(s) == [s[0]] + RemoveCidTokens(s[1..])
    ensures NoTokenBefore(s[1..], n - 1)
  {
    assert s[0..] == s;
    forall i | 0 <= i < n - 1 && i <= |s[1..]| ensures CidTokenLength(s[1..][i..]) == 0 {
      assert s[1..][i..] == s[i + 1..];
    }
  }

  /** Text without a cid token passes through pass 2 unchanged. */
  lemma {:induction false} RemoveCidTokensFixpoint(s: string)
    requires NoCidToken(s)
    ensures RemoveCidTokens(s) == s
  {
    if |s| > 0 {
      assert CidTokenLength(s[0..]) == 0 && s[0..] == s;
      assert NoCidToken(s[1..]) by {
        forall i | 0 <= i < |s[1..]| ensures CidTokenLength(s[1..][i..]) == 0 {
          assert s[1..][i..] == s[i + 1..];
        }
      }
      RemoveCidTokensFixpoint(s[1..]);
    }
  }

  /** Worked example: a token between two words disappears. */
  lemma RemoveCidTokensExample()
    ensures RemoveCidTokens("가(cid:12)나") == "가나"
  {
    var s := "가(cid:12)나";
    assert CidTokenLength(s) == 0;
    assert s[1..] == "(cid:12)나";
    assert LeadingDigits("12)나") == 2 by {
      assert "12)나"[1..] == "2)나";
      assert "2)나"[1..] == ")나";
    }
    assert CidTokenLength(s[1..]) == 8;
    assert s[1..][8..] == "나";
    assert RemoveCidTokens("나") == "나" by {
      assert CidTokenLength("나") == 0;
    }
  }

  // ---------------------------------------------------------------------------
  // Pass 3: re.sub(r'([가-힣])\1+', r'\1', text)
  // ---------------------------------------------------------------------------

  /** A run of one repeated syllable keeps only its last copy, which is the same
      text as keeping the first. */
  function CollapseRepeats(s: string): (r: string)
    ensures NoRepeatedSyllable(r)
    ensures |r| <= |s|
    ensures |s| > 0 ==> |r| > 0 && r[0] == s[0]
    ensures NoControlMarks(s) ==> NoControlMarks(r)
    ensures IsSubsequence(r, s)
    ensures WithoutSyllables(r) == WithoutSyllables(s)
  {
    if |s| < 2 then s
    else if IsHangulSyllable(s[0]) && s[1] == s[0] then
      var r := CollapseRepeats(s[1..]);
      SubsequenceOfTail(r, s);
      r
    else
      var rest := CollapseRepeats(s[1..]);
      var r := [s[0]] + rest;
      assert forall i :: 1 <= i < |r| ==> r[i] == rest[i - 1];
      assert r[1..] == rest;
      r
  }

  /** `s` with every Hangul syllable deleted: what pass 3 never touches. */
  function WithoutSyllables(s: string): string {
    if |s| == 0 then [] else (if IsHangulSyllable(s[0]) then [] else [s[0]]) + WithoutSyllables(s[1..])
  }

  /** `n` copies of `c`. */
  function Repeat(c: char, n: nat): (r: string)
    ensures |r| == n && forall i :: 0 <= i < n ==> r[i] == c
  {
    if n == 0 then [] else [c] + Repeat(c, n - 1)
  }

  /** Pass 3 run by run: a maximal run of one syllable becomes a single copy, and any
      other character is kept. Together these fix `CollapseRepeats` on every input. */
  lemma {:induction false} CollapseRepeatsOfRun(c: char, n: nat, rest: string)
    requires IsHangulSyllable(c) && n >= 1
    requires |rest| == 0 || rest[0] != c
    ensures CollapseRepeats(Repeat(c, n) + rest) == [c] + CollapseRepeats(rest)
  {
    var s := Repeat(c, n) + rest;
    if n == 1 {
      assert s == [c] + rest;
      if |s| >= 2 {
        assert s[1..] == rest;
      }
    } else {
      assert s[1..] == Repeat(c, n - 1) + rest;
      CollapseRepeatsOfRun(c, n - 1, rest);
    }
  }

  lemma CollapseRepeatsKeepsOther(c: char, rest: string)
    requires !IsHangulSyllable(c)
    ensures CollapseRepeats([c] + rest) == [c] + CollapseRepeats(rest)
  {
    assert ([c] + rest)[1..] == rest;
  }

  /** Text with no repeated syllable passes through pass 3 unchanged. */
  lemma {:induction false} CollapseRepeatsFixpoint(s: string)
    requires NoRepeatedSyllable(s)
    ensures CollapseRepeats(s) == s
  {
    if |s| >= 2 {
      assert !(IsHangulSyllable(s[0]) && s[1] == s[0]);
      CollapseRepeatsFixpoint(s[1..]);
    }
  }

  // ---------------------------------------------------------------------------
  // Pass 4: re.sub(r'([^\s])\n([^\s])', r'\1 \2', text)
  // ---------------------------------------------------------------------------

  /** Pass 4 as written: after a match the scan resumes behind the second non-space
      character, so that character cannot start the next match. */
  function UnwrapLines(s: string): (r: string)
    ensures NewlinesToSpacesOnly(s, r)
  {
    if |s| >= 3 && !IsSpace(s[0]) && s[1] == '\n' && !IsSpace(s[2]) then
      [s[0], ' ', s[2]] + UnwrapLines(s[3..])
    else if |s| == 0 then []
    else [s[0]] + UnwrapLines(s[1..])
  }

  /** Only newlines with a non-space character on both sides are rewritten. */
  predicate NoJoinableNewline(r: string) {
    forall i :: 0 < i < |r| - 1 && r[i] == '\n' ==> IsSpace(r[i - 1]) || IsSpace(r[i + 1])
  }

  /** Pass 4 as its comment describes it ("remove the line breaks between words"):
      the character after a rewritten newline may start the next match. */
  function UnwrapLinesIntended(s: string): (r: string)
    ensures NewlinesToSpacesOnly(s, r)
    ensures NoJoinableNewline(r)
  {
    if |s| >= 3 && !IsSpace(s[0]) && s[1] == '\n' && !IsSpace(s[2]) then
      var rest := UnwrapLinesIntended(s[2..]);
      var r := [s[0], ' '] + rest;
      assert rest[0] == s[2];
      assert forall i :: 2 <= i < |r| ==> r[i] == rest[i - 2];
      r
    else if |s| == 0 then []
    else
      var rest := UnwrapLinesIntended(s[1..]);
      var r := [s[0]] + rest;
      assert forall i :: 1 <= i < |r| ==> r[i] == rest[i - 1];
      assert |s| >= 3 && r[1] == '\n' ==> s[1] == '\n' && (IsSpace(r[2]) <==> IsSpace(s[2]));
      r
  }

  /** Every character pass 4 changes is a newline with a non-space character on
      both sides. */
  predicate RewritesOnlyJoinable(s: string, r: string) {
    && |r| == |s|
    && forall i :: 0 <= i < |s| && r[i] != s[i] ==> 0 < i < |s| - 1 && !IsSpace(s[i - 1]) && !IsSpace(s[i + 1])
  }

  lemma {:induction false} UnwrapLinesRewritesOnlyJoinable(s: string)
    ensures RewritesOnlyJoinable(s, UnwrapLines(s))
  {
    var r := UnwrapLines(s);
    if |s| >= 3 && !IsSpace(s[0]) && s[1] == '\n' && !IsSpace(s[2]) {
      var rest := UnwrapLines(s[3..]);
      UnwrapLinesRewritesOnlyJoinable(s[3..]);
      forall i | 3 <= i < |s| && r[i] != s[i]
        ensures 0 < i < |s| - 1 && !IsSpace(s[i - 1]) && !IsSpace(s[i + 1])
      {
        assert r[i] == rest[i - 3] && s[i] == s[3..][i - 3];
        assert s[i - 1] == s[3..][i - 4] && s[i + 1] == s[3..][i - 2];
      }
    } else if |s| > 0 {
      var rest := UnwrapLines(s[1..]);
      UnwrapLinesRewritesOnlyJoinable(s[1..]);
      forall i | 1 <= i < |s| && r[i] != s[i]
        ensures 0 < i < |s| - 1 && !IsSpace(s[i - 1]) && !IsSpace(s[i + 1])
      {
        assert r[i] == rest[i - 1] && s[i] == s[1..][i - 1];
        assert s[i - 1] == s[1..][i - 2] && s[i + 1] == s[1..][i];
      }
    }
  }

  /** The same holds for the intended pass. */
  lemma {:induction false} UnwrapLinesIntendedRewritesOnlyJoinable(s: string)
    ensures RewritesOnlyJoinable(s, UnwrapLinesIntended(s))
  {
    var r := UnwrapLinesIntended(s);
    if |s| >= 3 && !IsSpace(s[0]) && s[1] == '\n' && !IsSpace(s[2]) {
      var rest := UnwrapLinesIntended(s[2..]);
      UnwrapLinesIntendedRewritesOnlyJoinable(s[2..]);
      forall i | 2 <= i < |s| && r[i] != s[i]
        ensures 0 < i < |s| - 1 && !IsSpace(s[i - 1]) && !IsSpace(s[i + 1])
      {
        assert r[i] == rest[i - 2] && s[i] == s[2..][i - 2];
        assert s[i - 1] == s[2..][i - 3] && s[i + 1] == s[2..][i - 1];
      }
    } else if |s| > 0 {
      var rest := UnwrapLinesIntended(s[1..]);
      UnwrapLinesIntendedRewritesOnlyJoinable(s[1..]);
      forall i | 1 <= i < |s| && r[i] != s[i]
        ensures 0 < i < |s| - 1 && !IsSpace(s[i - 1]) && !IsSpace(s[i + 1])
      {
        assert r[i] == rest[i - 1] && s[i] == s[1..][i - 1];
        assert s[i - 1] == s[1..][i - 2] && s[i + 1] == s[1..][i];
      }
    }
  }

  /** Position `i` of `s` holds a newline between two non-space characters. */
  predicate Joinable(s: string, i: int) {
    0 < i < |s| - 1 && s[i] == '\n' && !IsSpace(s[i - 1]) && !IsSpace(s[i + 1])
  }

  /** The exact rewrite set of the scan as written: a joinable newline becomes a space
      unless the newline two places before it was rewritten, because that match used
      up its left neighbour. */
  predicate RewritesNonOverlapping(s: string, r: string) {
    && |r| == |s|
    && forall i {:trigger Rewritten(s, r, i)} :: 0 <= i < |s| ==> (Rewritten(s, r, i) <==> Joinable(s, i) && !Rewritten(s, r, i - 2))
  }

  /** Position `i` of `s` holds a different character in `r`. */
  predicate Rewritten(s: string, r: string, i: int) {
    0 <= i < |s| && i < |r| && r[i] != s[i]
  }

  lemma RewritesNonOverlappingAt(s: string, r: string, i: int)
    requires RewritesNonOverlapping(s, r) && 0 <= i < |s|
    ensures Rewritten(s, r, i) <==> Joinable(s, i) && !Rewritten(s, r, i - 2)
  {
  }

  lemma {:induction false} UnwrapLinesRewritesNonOverlapping(s: string)
    ensures RewritesNonOverlapping(s, UnwrapLines(s))
  {
    if |s| >= 3 && !IsSpace(s[0]) && s[1] == '\n' && !IsSpace(s[2]) {
      UnwrapLinesRewritesNonOverlapping(s[3..]);
      JoinStepRewritesNonOverlapping(s);
    } else if |s| > 0 {
      UnwrapLinesRewritesNonOverlapping(s[1..]);
      CopyStepRewritesNonOverlapping(s);
    }
  }

  /** A match at the start: the newline at 1 is rewritten and the scan resumes at 3. */
  lemma JoinStepRewritesNonOverlapping(s: string)
    requires |s| >= 3 && !IsSpace(s[0]) && s[1] == '\n' && !IsSpace(s[2])
    requires RewritesNonOverlapping(s[3..], UnwrapLines(s[3..]))
    ensures RewritesNonOverlapping(s, UnwrapLines(s))
  {
    var r := UnwrapLines(s);
    var t := s[3..];
    var rest := UnwrapLines(t);
    assert r == [s[0], ' ', s[2]] + rest;
    assert |rest| == |t| && |r| == |s|;
    forall i | 0 <= i < |s|
      ensures Rewritten(s, r, i) <==> Joinable(s, i) && !Rewritten(s, r, i - 2)
    {
      if i < 3 {
        assert !Rewritten(s, r, 0) && Rewritten(s, r, 1) && !Rewritten(s, r, 2);
        assert !Joinable(s, 0) && Joinable(s, 1) && !Joinable(s, 2);
        assert !Rewritten(s, r, i - 2);
      } else {
        assert r[i] == rest[i - 3] && s[i] == t[i - 3];
        RewritesNonOverlappingAt(t, rest, i - 3);
        if i == 3 {
          assert Rewritten(s, r, 1);
        } else {
          assert Joinable(s, i) <==> Joinable(t, i - 3) by {
            if i < |s| - 1 {
              assert s[i - 1] == t[i - 4] && s[i + 1] == t[i - 2];
            }
          }
          if i == 4 {
            assert !Rewritten(s, r, 2);
          } else {
            assert r[i - 2] == rest[i - 5] && s[i - 2] == t[i - 5];
          }
        }
      }
    }
    assert RewritesNonOverlapping(s, r);
  }

  /** No match at the start: the first character is copied and the scan resumes at 1. */
  lemma CopyStepRewritesNonOverlapping(s: string)
    requires |s| > 0 && !(|s| >= 3 && !IsSpace(s[0]) && s[1] == '\n' && !IsSpace(s[2]))
    requires RewritesNonOverlapping(s[1..], UnwrapLines(s[1..]))
    ensures RewritesNonOverlapping(s, UnwrapLines(s))
  {
    var r := UnwrapLines(s);
    var t := s[1..];
    var rest := UnwrapLines(t);
    assert r == [s[0]] + rest;
    assert |rest| == |t| && |r| == |s|;
    forall i | 0 <= i < |s|
      ensures Rewritten(s, r, i) <==> Joinable(s, i) && !Rewritten(s, r, i - 2)
    {
      if i == 0 {
        assert !Rewritten(s, r, 0) && !Joinable(s, 0);
      } else {
        assert r[i] == rest[i - 1] && s[i] == t[i - 1];
        RewritesNonOverlappingAt(t, rest, i - 1);
        if i == 1 {
          assert !Joinable(s, 1);
        } else {
          assert Joinable(s, i) <==> Joinable(t, i - 1) by {
            if i < |s| - 1 {
              assert s[i - 1] == t[i - 2] && s[i + 1] == t[i];
            }
          }
          if i == 2 {
            assert !Rewritten(s, r, 0);
          } else {
            assert r[i - 2] == rest[i - 3] && s[i - 2] == t[i - 3];
          }
        }
      }
    }
    assert RewritesNonOverlapping(s, r);
  }

  /** The pass as written leaves a newline between two words when the first word is a
      single character that itself followed a rewritten newline. */
  lemma UnwrapLinesMissesSingleCharacterLine()
    ensures UnwrapLines("가\n나\n다") == "가 나\n다"
    ensures !NoJoinableNewline(UnwrapLines("가\n나\n다"))
  {
    var s := "가\n나\n다";
    assert s[3..] == "\n다";
    assert UnwrapLines("\n다") == "\n다" by {
      assert "\n다"[1..] == "다";
      assert UnwrapLines("다") == "다";
    }
    var r := UnwrapLines(s);
    assert r == [s[0], ' ', s[2]] + "\n다";
    assert r[3] == '\n' && !IsSpace(r[2]) && !IsSpace(r[4]);
  }

  /** The intended pass joins all three lines of the same text. */
  lemma UnwrapLinesIntendedJoinsEveryLine()
    ensures UnwrapLinesIntended("가\n나\n다") == "가 나 다"
  {
    var s := "가\n나\n다";
    assert s[2..] == "나\n다";
    assert "나\n다"[2..] == "다";
    assert UnwrapLinesIntended("다") == "다";
  }

  lemma {:induction false} UnwrapLinesWithoutNewline(s: string)
    requires NoNewline(s)
    ensures UnwrapLines(s) == s && UnwrapLinesIntended(s) == s
  {
    if |s| > 0 {
      UnwrapLinesWithoutNewline(s[1..]);
    }
  }

  // ---------------------------------------------------------------------------
  // Pass 5: re.sub(r'\n{2,}', '\n\n', text)
  // ---------------------------------------------------------------------------

  predicate StartsWithTwoNewlines(s: string) {
    |s| >= 2 && s[0] == '\n' && s[1] == '\n'
  }

  /** `s` with every newline deleted. */
  function WithoutNewlines(s: string): string {
    if |s| == 0 then [] else (if s[0] == '\n' then [] else [s[0]]) + WithoutNewlines(s[1..])
  }

  /** A run of n >= 2 newlines keeps its last two: the first newline is dropped
      while at least three are left. */
  function SqueezeNewlines(s: string): (r: string)
    ensures NoTripleNewline(r)
    ensures |r| <= |s|
    ensures |s| > 0 ==> |r| > 0 && r[0] == s[0]
    ensures StartsWithTwoNewlines(r) <==> StartsWithTwoNewlines(s)
  {
    if |s| >= 3 && s[0] == '\n' && s[1] == '\n' && s[2] == '\n' then SqueezeNewlines(s[1..])
    else if |s| == 0 then []
    else
      var rest := SqueezeNewlines(s[1..]);
      var r := [s[0]] + rest;
      assert forall i :: 1 <= i < |r| ==> r[i] == rest[i - 1];
      r
  }

  /** Pass 5 run by run: a run of n newlines becomes min(n, 2) newlines, and the
      character that ends the run is kept. Together these fix `SqueezeNewlines` on
      every input. */
  lemma {:induction false} SqueezeNewlinesOfRun(n: nat)
    ensures SqueezeNewlines(Repeat('\n', n)) == Repeat('\n', if n >= 2 then 2 else n)
  {
    if n > 0 {
      assert Repeat('\n', n)[1..] == Repeat('\n', n - 1);
      SqueezeNewlinesOfRun(n - 1);
    }
  }

  lemma {:induction false} SqueezeNewlinesOfRunThen(n: nat, c: char, rest: string)
    requires c != '\n'
    ensures SqueezeNewlines(Repeat('\n', n) + [c] + rest)
      == Repeat('\n', if n >= 2 then 2 else n) + [c] + SqueezeNewlines(rest)
  {
    var s := Repeat('\n', n) + [c] + rest;
    if n == 0 {
      assert s == [c] + rest && s[1..] == rest;
    } else {
      assert s[1..] == Repeat('\n', n - 1) + [c] + rest;
      SqueezeNewlinesOfRunThen(n - 1, c, rest);
      if n >= 3 {
        assert s[2] == '\n';
      } else {
        assert s[n] == c;
        assert SqueezeNewlines(s) == [s[0]] + SqueezeNewlines(s[1..]);
      }
    }
  }

  /** Pass 5 removes newlines and nothing else. */
  lemma {:induction false} SqueezeNewlinesOnlyDropsNewlines(s: string)
    ensures WithoutNewlines(SqueezeNewlines(s)) == WithoutNewlines(s)
  {
    if |s| > 0 {
      SqueezeNewlinesOnlyDropsNewlines(s[1..]);
      if !(|s| >= 3 && s[0] == '\n' && s[1] == '\n' && s[2] == '\n') {
        var r := SqueezeNewlines(s);
        assert r[1..] == SqueezeNewlines(s[1..]);
      }
    }
  }

  /** Text with no three newlines in a row passes through pass 5 unchanged. */
  lemma {:induction false} SqueezeNewlinesFixpoint(s: string)
    requires NoTripleNewline(s)
    ensures SqueezeNewlines(s) == s
  {
    if |s| > 0 {
      assert !(|s| >= 3 && s[0] == '\n' && s[1] == '\n' && s[2] == '\n');
      assert NoTripleNewline(s[1..]) by {
        assert forall i :: 0 <= i < |s| - 1 ==> s[1..][i] == s[i + 1];
      }
      SqueezeNewlinesFixpoint(s[1..]);
    }
  }

  /** Deleting newlines cannot bring a control mark in or place a syllable next to a
      copy of itself: the two neighbours of a deleted newline are newlines themselves. */
  lemma {:induction false} SqueezeNewlinesKeepsProperties(s: string)
    ensures NoControlMarks(s) ==> NoControlMarks(SqueezeNewlines(s))
    ensures NoRepeatedSyllable(s) ==> NoRepeatedSyllable(SqueezeNewlines(s))
  {
    if |s| > 0 {
      SqueezeNewlinesKeepsProperties(s[1..]);
      if !(|s| >= 3 && s[0] == '\n' && s[1] == '\n' && s[2] == '\n') {
        var rest := SqueezeNewlines(s[1..]);
        var r := SqueezeNewlines(s);
        assert forall i :: 1 <= i < |r| ==> r[i] == rest[i - 1];
        assert |rest| > 0 ==> r[1] == s[1];
        assert NoRepeatedSyllable(s) ==> NoRepeatedSyllable(s[1..]) by {
          assert forall i :: 0 <= i < |s| - 1 ==> s[1..][i] == s[i + 1];
        }
      }
    }
  }

  // ---------------------------------------------------------------------------
  // The whole function
  // ---------------------------------------------------------------------------

  /** Passes 1-3. */
  function Prepare(s: string): (r: string)
    ensures NoControlMarks(r) && NoRepeatedSyllable(r)
    ensures |r| <= |s|
  {
    CollapseRepeats(RemoveCidTokens(RemoveControlMarks(s)))
  }

  /** Pass 5 and the final `strip()`. */
  function Finish(u: string): string {
    Strip(SqueezeNewlines(u))
  }

  /** Turning newlines into spaces cannot place a syllable next to a copy of itself. */
  lemma NewlinesToSpacesKeepsProperties(p: string, u: string)
    requires NewlinesToSpacesOnly(p, u)
    ensures NoControlMarks(p) ==> NoControlMarks(u)
    ensures NoRepeatedSyllable(p) ==> NoRepeatedSyllable(u)
  {
    if NoRepeatedSyllable(p) {
      forall i | 0 <= i < |u| - 1 ensures !(IsHangulSyllable(u[i]) && u[i + 1] == u[i]) {
        assert IsHangulSyllable(u[i]) ==> u[i] == p[i];
        assert IsHangulSyllable(u[i + 1]) ==> u[i + 1] == p[i + 1];
      }
    }
  }

  /** A slice of a string keeps every "no bad neighbours" property of the string. */
  lemma SliceKeepsProperties(s: string, a: nat, r: string)
    requires a + |r| <= |s| && r == s[a..a + |r|]
    ensures NoControlMarks(s) ==> NoControlMarks(r)
    ensures NoRepeatedSyllable(s) ==> NoRepeatedSyllable(r)
    ensures NoTripleNewline(s) ==> NoTripleNewline(r)
  {
    assert forall i :: 0 <= i < |r| ==> r[i] == s[a + i];
    if NoRepeatedSyllable(s) {
      forall i | 0 <= i < |r| - 1 ensures !(IsHangulSyllable(r[i]) && r[i + 1] == r[i]) {
        assert r[i] == s[a + i] && r[i + 1] == s[a + i + 1];
      }
    }
    if NoTripleNewline(s) {
      forall i | 0 <= i < |r| - 2 ensures !(r[i] == '\n' && r[i + 1] == '\n' && r[i + 2] == '\n') {
        assert r[i] == s[a + i] && r[i + 1] == s[a + i + 1] && r[i + 2] == s[a + i + 2];
      }
    }
  }

  /** Whatever pass 4 did, passes 5 and `strip()` deliver clean text no longer than
      the prepared text. */
  lemma FinishIsClean(p: string, u: string)
    requires NoControlMarks(p) && NoRepeatedSyllable(p)
    requires NewlinesToSpacesOnly(p, u)
    ensures var r := Finish(u);
      && NoControlMarks(r) && IsStripped(r) && NoRepeatedSyllable(r) && NoTripleNewline(r)
      && |r| <= |p|
  {
    NewlinesToSpacesKeepsProperties(p, u);
    FinishKeepsProperties(u);
  }

  lemma FinishKeepsProperties(u: string)
    requires NoControlMarks(u) && NoRepeatedSyllable(u)
    ensures var r := Finish(u);
      && NoControlMarks(r) && IsStripped(r) && NoRepeatedSyllable(r) && NoTripleNewline(r)
      && |r| <= |u|
  {
    SqueezeNewlinesKeepsProperties(u);
    StripKeepsProperties(SqueezeNewlines(u));
  }

  lemma StripKeepsProperties(q: string)
    requires NoControlMarks(q) && NoRepeatedSyllable(q) && NoTripleNewline(q)
    ensures NoControlMarks(Strip(q)) && NoRepeatedSyllable(Strip(q)) && NoTripleNewline(Strip(q))
  {
    SliceKeepsProperties(q, StripStart(q), Strip(q));
  }

  /** `clean_text`: the output has no form feed or U+0001, no surrounding whitespace,
      no syllable doubled, no three newlines in a row, and is never longer than the input. */
  function CleanText(s: string): (r: string)
    ensures NoControlMarks(r)
    ensures IsStripped(r)
    ensures NoRepeatedSyllable(r)
    ensures NoTripleNewline(r)
    ensures |r| <= |s|
  {
    var p := Prepare(s);
    var u := UnwrapLines(p);
    FinishIsClean(p, u);
    Finish(u)
  }

  /** `clean_text` with pass 4 as its comment describes it; it keeps every guarantee
      of `CleanText`. */
  function CleanTextIntended(s: string): (r: string)
    ensures NoControlMarks(r)
    ensures IsStripped(r)
    ensures NoRepeatedSyllable(r)
    ensures NoTripleNewline(r)
    ensures |r| <= |s|
  {
    var p := Prepare(s);
    var u := UnwrapLinesIntended(p);
    FinishIsClean(p, u);
    Finish(u)
  }

  /** Text that is already clean (single line, no control marks, no cid token, no
      doubled syllable, no surrounding whitespace) comes back unchanged. */
  lemma CleanTextFixpoint(s: string)
    requires NoNewline(s) && NoControlMarks(s) && NoCidToken(s) && NoRepeatedSyllable(s)
    requires IsStripped(s)
    ensures CleanText(s) == s
    ensures CleanTextIntended(s) == s
  {
    RemoveCidTokensFixpoint(s);
    CollapseRepeatsFixpoint(s);
    UnwrapLinesWithoutNewline(s);
    assert NoTripleNewline(s);
    SqueezeNewlinesFixpoint(s);
    StripFixpoint(s);
  }
}

=== FILE: dict.dfy ===
/** The plain-data values that the records' `to_dict` methods produce (Python
    `dict`s of strings, integers and `None`), and the encoding of optional strings. */
module Dict {
  import opened Wrappers

  datatype Value = Null | Str(s: string) | Int(i: int) | Obj(fields: map<string, Value>)

  /** An optional string as a dictionary value: Python stores `None` or the string itself. */
  function OptionalString(o: Option<string>): (v: Value)
    ensures ReadOptionalString(v) == Some(o)
  {
    match o
    case None => Null
    case Some(s) => Str(s)
  }

  /** Reads back an optional string; `None` when the value is neither `None` nor a string. */
  function ReadOptionalString(v: Value): Option<Option<string>> {
    match v
    case Null => Some(None)
    case Str(s) => Some(Some(s))
    case _ => None
  }
}

=== FILE: finditer.dfy ===
/**
 The scan behind Python's `re.finditer` for a pattern that never matches the empty
 string: positions are tried left to right, and after a match the scan resumes at
 its end, so matches never overlap. The pattern is given by its match length at
 each position (0 where it does not match).
 */
module Finditer {

  /** One reported match: `(match.start(), match.group())`. */
  datatype Issue = Issue(pos: nat, text: string)

  /** `issue.text` is the slice of `s` starting at `issue.pos`. */
  predicate Located(s: string, issue: Issue) {
    issue.pos + |issue.text| <= |s| && s[issue.pos..issue.pos + |issue.text|] == issue.text
  }

  /** The match covers index `j`. */
  predicate Covers(issue: Issue, j: int) {
    issue.pos <= j < issue.pos + |issue.text|
  }

  /** A table of match lengths, one per position, none running past the end of `s`. */
  predicate FitsText(m: seq<nat>, s: string) {
    |m| == |s| && forall i :: 0 <= i < |m| ==> i + m[i] <= |s|
  }

  /** `issue` is a whole non-empty match according to `m`. */
  predicate Found(m: seq<nat>, s: string, issue: Issue) {
    issue.pos < |m| && m[issue.pos] == |issue.text| > 0 && Located(s, issue)
  }

  /** The matches found from index `from` on, in order and without overlap. */
  function Scan(m: seq<nat>, s: string, from: nat): (r: seq<Issue>)
    requires FitsText(m, s) && from <= |s|
    ensures forall k :: 0 <= k < |r| ==> from <= r[k].pos && Found(m, s, r[k])
    ensures forall k :: 0 <= k < |r| - 1 ==> r[k].pos + |r[k].text| <= r[k + 1].pos
    decreases |s| - from
  {
    if from == |s| then []
    else if m[from] > 0 then
      var n := m[from];
      var rest := Scan(m, s, from + n);
      var first := Issue(from, s[from..from + n]);
      assert |first.text| == n && Found(m, s, first);
      var r := [first] + rest;
      assert r[0] == first;
      assert forall k :: 0 < k < |r| ==> r[k] == rest[k - 1];
      r
    else
      Scan(m, s, from + 1)
  }

  /** Nothing is skipped: every position from `from` on with a match lies inside some
      reported match (it either starts one or was consumed by an earlier one); `k`
      is that match. */
  lemma {:induction false} ScanCovers(m: seq<nat>, s: string, from: nat, j: nat) returns (k: nat)
    requires FitsText(m, s) && from <= j < |s| && m[j] > 0
    ensures k < |Scan(m, s, from)| && Covers(Scan(m, s, from)[k], j)
    decreases |s| - from
  {
    var r := Scan(m, s, from);
    if m[from] > 0 {
      var rest := Scan(m, s, from + m[from]);
      var first := Issue(from, s[from..from + m[from]]);
      assert r == [first] + rest;
      if j < from + m[from] {
        k := 0;
        assert r[0] == first;
      } else {
        var k' := ScanCovers(m, s, from + m[from], j);
        k := k' + 1;
        assert r[k] == rest[k'];
      }
    } else {
      assert j != from;
      assert r == Scan(m, s, from + 1);
      k := ScanCovers(m, s, from + 1, j);
    }
  }

  /** The scan reports nothing exactly when nothing matches from `from` on. */
  lemma ScanEmpty(m: seq<nat>, s: string, from: nat)
    requires FitsText(m, s) && from <= |s|
    ensures Scan(m, s, from) == [] <==> forall j :: from <= j < |s| ==> m[j] == 0
  {
    var r := Scan(m, s, from);
    if exists j :: from <= j < |s| && m[j] > 0 {
      var j :| from <= j < |s| && m[j] > 0;
      var k := ScanCovers(m, s, from, j);
    }
    if r != [] {
      assert Found(m, s, r[0]) && from <= r[0].pos;
    }
  }
}

=== FILE: passage.dfy ===
/** The `Passage` record of model/passage.py. */
module PassageModel {
  import opened Wrappers
  import opened Dict

  datatype Passage = Passage(
    content: string,
    passageId: string,
    questionRange: Option<string>,
    instruction: Option<string>,
    imagePath: Option<string>)

  /** The identifier a passage gets when none (or an empty one) is supplied. */
  const DefaultPassageId: string := "passage_1"

  const PassageKeys: set<string> := {"id", "content", "question_range", "instruction", "image_path"}

  /** `Passage.__init__`: `passage_id or "passage_1"` replaces both `None` and the
      empty string by the default id, so a passage never has an empty id; every
      other argument is stored unchanged. */
  function NewPassage(
    content: string,
    passageId: Option<string> := None,
    questionRange: Option<string> := None,
    instruction: Option<string> := None,
    imagePath: Option<string> := None): (p: Passage)
    ensures p.passageId != []
    ensures (passageId == None || passageId == Some([])) ==> p.passageId == "passage_1"
    ensures passageId.Some? && passageId.value != [] ==> p.passageId == passageId.value
    ensures p.content == content && p.questionRange == questionRange
    ensures p.instruction == instruction && p.imagePath == imagePath
  {
    var id := if passageId.Some? && passageId.value != [] then passageId.value else DefaultPassageId;
    Passage(content, id, questionRange, instruction, imagePath)
  }

  /** `Passage.to_dict`: the identifier is exposed under the key "id". */
  function PassageToDict(p: Passage): (d: map<string, Value>)
    ensures d.Keys == PassageKeys
    ensures d["id"] == Str(p.passageId)
  {
    map[
      "id" := Str(p.passageId),
      "content" := Str(p.content),
      "question_range" := OptionalString(p.questionRange),
      "instruction" := OptionalString(p.instruction),
      "image_path" := OptionalString(p.imagePath)]
  }

  /** Reads a `Passage` back from its dictionary form. */
  function PassageFromDict(d: map<string, Value>): Option<Passage> {
    if && "id" in d && d["id"].Str?
       && "content" in d && d["content"].Str?
       && "question_range" in d && ReadOptionalString(d["question_range"]).Some?
       && "instruction" in d && ReadOptionalString(d["instruction"]).Some?
       && "image_path" in d && ReadOptionalString(d["image_path"]).Some?
    then Some(Passage(
      d["content"].s,
      d["id"].s,
      ReadOptionalString(d["question_range"]).value,
      ReadOptionalString(d["instruction"]).value,
      ReadOptionalString(d["image_path"]).value))
    else None
  }

  /** `to_dict` loses nothing: content, id, range, instruction and image path come back unchanged. */
  lemma PassageDictRoundTrip(p: Passage)
    ensures PassageFromDict(PassageToDict(p)) == Some(p)
  {
  }
}

=== FILE: question.dfy ===
/** The `Metadata` and `Question` records of model/question.py. */
module QuestionModel {
  import opened Wrappers
  import opened Dict

  /** A question's classification: its type tag, difficulty and optional points. */
  datatype Metadata = Metadata(questionType: string, difficulty: string, points: Option<string>)

  /** The `answer` field is typed `Union[int, str, None]`. */
  datatype Answer = Number(n: int) | Text(s: string)

  datatype Question = Question(
    stem: string,
    choicesText: Option<string>,
    answer: Option<Answer>,
    explanation: Option<string>,
    conditions: Option<string>,
    metadata: Metadata)

  /** The difficulty every default and every parsed question carries: "중" (medium). */
  const MediumDifficulty: string := "중"

  /** What `metadata or Metadata(...)` substitutes when no metadata is given. */
  const DefaultMetadata: Metadata := Metadata("etc", MediumDifficulty, None)

  const MetadataKeys: set<string> := {"type", "difficulty", "points"}
  const QuestionKeys: set<string> := {"stem", "choices_text", "answer", "explanation", "conditions", "metadata"}

  /** `Question.__init__`: every field is stored unchanged, except that missing
      metadata becomes type "etc", difficulty "중", no points. A `Metadata`
      object is always truthy in Python, so a supplied one is kept as it is. */
  function NewQuestion(
    stem: string,
    answer: Option<Answer>,
    choicesText: Option<string> := None,
    explanation: Option<string> := None,
    conditions: Option<string> := None,
    metadata: Option<Metadata> := None): (q: Question)
    ensures q.stem == stem && q.choicesText == choicesText && q.answer == answer
    ensures q.explanation == explanation && q.conditions == conditions
    ensures metadata.Some? ==> q.metadata == metadata.value
    ensures metadata.None? ==>
      q.metadata.questionType == "etc" && q.metadata.difficulty == "중" && q.metadata.points == None
  {
    Question(stem, choicesText, answer, explanation, conditions, metadata.GetOr(DefaultMetadata))
  }

  /** `Metadata.to_dict`: the keys "type", "difficulty" and "points". */
  function MetadataToDict(m: Metadata): (d: map<string, Value>)
    ensures d.Keys == MetadataKeys
  {
    map["type" := Str(m.questionType), "difficulty" := Str(m.difficulty), "points" := OptionalString(m.points)]
  }

  /** Reads a `Metadata` back from its dictionary form. */
  function MetadataFromDict(d: map<string, Value>): Option<Metadata> {
    if "type" in d && "difficulty" in d && "points" in d
       && d["type"].Str? && d["difficulty"].Str? && ReadOptionalString(d["points"]).Some?
    then Some(Metadata(d["type"].s, d["difficulty"].s, ReadOptionalString(d["points"]).value))
    else None
  }

  /** `to_dict` loses nothing: type, difficulty and points come back unchanged. */
  lemma MetadataDictRoundTrip(m: Metadata)
    ensures MetadataFromDict(MetadataToDict(m)) == Some(m)
  {
  }

  function AnswerValue(a: Option<Answer>): Value {
    match a
    case None => Null
    case Some(Number(n)) => Int(n)
    case Some(Text(s)) => Str(s)
  }

  function ReadAnswer(v: Value): Option<Option<Answer>> {
    match v
    case Null => Some(None)
    case Int(n) => Some(Some(Number(n)))
    case Str(s) => Some(Some(Text(s)))
    case Obj(_) => None
  }

  /** `Question.to_dict`: exactly six keys, the metadata nested as its own `to_dict`. */
  function QuestionToDict(q: Question): (d: map<string, Value>)
    ensures d.Keys == QuestionKeys && |d.Keys| == 6
    ensures d["stem"] == Str(q.stem) && d["answer"] == AnswerValue(q.answer)
    ensures d["choices_text"] == OptionalString(q.choicesText)
    ensures d["explanation"] == OptionalString(q.explanation)
    ensures d["conditions"] == OptionalString(q.conditions)
    ensures d["metadata"] == Obj(MetadataToDict(q.metadata))
  {
    var d := map[
      "stem" := Str(q.stem),
      "choices_text" := OptionalString(q.choicesText),
      "answer" := AnswerValue(q.answer),
      "explanation" := OptionalString(q.explanation),
      "conditions" := OptionalString(q.conditions),
      "metadata" := Obj(MetadataToDict(q.metadata))];
    assert |QuestionKeys| == 6 by {
      assert QuestionKeys == {"stem"} + {"choices_text"} + {"answer"} + {"explanation"} + {"conditions"} + {"metadata"};
    }
    d
  }

  /** Reads a `Question` back from its dictionary form. */
  function QuestionFromDict(d: map<string, Value>): Option<Question> {
    if && "stem" in d && d["stem"].Str?
       && "choices_text" in d && ReadOptionalString(d["choices_text"]).Some?
       && "answer" in d && ReadAnswer(d["answer"]).Some?
       && "explanation" in d && ReadOptionalString(d["explanation"]).Some?
       && "conditions" in d && ReadOptionalString(d["conditions"]).Some?
       && "metadata" in d && d["metadata"].Obj? && MetadataFromDict(d["metadata"].fields).Some?
    then Some(Question(
      d["stem"].s,
      ReadOptionalString(d["choices_text"]).value,
      ReadAnswer(d["answer"]).value,
      ReadOptionalString(d["explanation"]).value,
      ReadOptionalString(d["conditions"]).value,
      MetadataFromDict(d["metadata"].fields).value))
    else None
  }

  /** `to_dict` loses nothing: every field, metadata included, comes back unchanged. */
  lemma QuestionDictRoundTrip(q: Question)
    ensures QuestionFromDict(QuestionToDict(q)) == Some(q)
  {
    MetadataDictRoundTrip(q.metadata);
    ReadQuestionFields(QuestionToDict(q), q);
  }

  /** A dictionary whose six entries encode the fields of `q` is read back as `q`. */
  lemma ReadQuestionFields(d: map<string, Value>, q: Question)
    requires QuestionKeys <= d.Keys
    requires d["stem"] == Str(q.stem) && d["answer"] == AnswerValue(q.answer)
    requires d["choices_text"] == OptionalString(q.choicesText)
    requires d["explanation"] == OptionalString(q.explanation)
    requires d["conditions"] == OptionalString(q.conditions)
    requires d["metadata"] == Obj(MetadataToDict(q.metadata))
    requires MetadataFromDict(MetadataToDict(q.metadata)) == Some(q.metadata)
    ensures QuestionFromDict(d) == Some(q)
  {
    assert ReadAnswer(d["answer"]) == Some(q.answer) by {
      match q.answer
      case None =>
      case Some(a) =>
    }
  }
}

=== FILE: statistics.dfy ===
/**
 The bookkeeping of `SuneungExtractor` in utils/suneung_extractor.py: the
 statistics block of an extraction result (`_calculate_statistics`) and the
 sanitised title used to name the output directory (`safe_title`).

 Python dicts keep their keys in insertion order; a counter dict is modelled as a
 list of (key, count) pairs with distinct keys, in the order the keys first appeared.
 */
module ExtractionStatistics {
  import opened Wrappers
  import opened Text
  import opened QuestionModel
  import opened PassageModel

  // ---------------------------------------------------------------------------
  // Data
  // ---------------------------------------------------------------------------

  /** A question as the statistics see it: `Question` itself has no `passage_id`
      attribute, so the link to its passage is carried alongside. */
  datatype LinkedQuestion = LinkedQuestion(question: Question, passageId: Option<string>)

  /** One entry of `passage_stats`. */
  datatype PassageStat = PassageStat(id: string, questionRange: Option<string>, wordCount: nat, charCount: nat)

  /** A dict from keys to counts, as (key, count) pairs in insertion order. */
  type Counter = seq<(string, nat)>

  datatype Statistics = Statistics(
    passageStats: seq<PassageStat>,
    questionTypes: Counter,
    questionsPerPassage: Counter)

  /** The key under which questions without a passage are counted. */
  const UnknownPassage: string := "unknown"

  // ---------------------------------------------------------------------------
  // Counters
  // ---------------------------------------------------------------------------

  predicate DistinctKeys(c: Counter) {
    forall i, j :: 0 <= i < j < |c| ==> c[i].0 != c[j].0
  }

  /** Every stored count is at least one: a key only enters the dict when counted. */
  predicate PositiveCounts(c: Counter) {
    forall i :: 0 <= i < |c| ==> c[i].1 >= 1
  }

  predicate WellFormedCounter(c: Counter) {
    DistinctKeys(c) && PositiveCounts(c)
  }

  function KeysOf(c: Counter): set<string> {
    if |c| == 0 then {} else {c[0].0} + KeysOf(c[1..])
  }

  /** A name is a key exactly when some pair carries it. */
  lemma {:induction false} KeysOfIndex(c: Counter, k: string)
    ensures k in KeysOf(c) <==> exists j :: 0 <= j < |c| && c[j].0 == k
  {
    if |c| > 0 {
      KeysOfIndex(c[1..], k);
      if k in KeysOf(c[1..]) {
        var j :| 0 <= j < |c[1..]| && c[1..][j].0 == k;
        assert c[j + 1].0 == k;
      }
      if exists j :: 0 <= j < |c| && c[j].0 == k {
        var j :| 0 <= j < |c| && c[j].0 == k;
        if j > 0 {
          assert c[1..][j - 1].0 == k;
        }
      }
    }
  }

  /** `d.get(k, 0)` */
  function Get(c: Counter, k: string): nat {
    if |c| == 0 then 0 else if c[0].0 == k then c[0].1 else Get(c[1..], k)
  }

  /** `sum(d.values())` */
  function Total(c: Counter): nat {
    if |c| == 0 then 0 else c[0].1 + Total(c[1..])
  }

  /** `d[k] = d.get(k, 0) + 1`: the count of `k` goes up by one and every other
      count stays. */
  function Bump(c: Counter, k: string): (r: Counter)
    ensures Get(r, k) == Get(c, k) + 1
    ensures forall k' :: k' != k ==> Get(r, k') == Get(c, k')
  {
    if |c| == 0 then [(k, 1)]
    else if c[0].0 == k then
      var r := c[0 := (k, c[0].1 + 1)];
      assert r[1..] == c[1..];
      r
    else
      var tail := Bump(c[1..], k);
      var r := [c[0]] + tail;
      assert r[1..] == tail;
      r
  }

  /** A counter is well formed exactly when its head key is new to a well-formed tail. */
  lemma ConsWellFormed(x: (string, nat), t: Counter)
    ensures WellFormedCounter([x] + t) <==> x.1 >= 1 && x.0 !in KeysOf(t) && WellFormedCounter(t)
  {
    var c := [x] + t;
    assert forall i :: 0 < i < |c| ==> c[i] == t[i - 1];
    KeysOfIndex(t, x.0);
    if WellFormedCounter(c) {
      forall j | 0 <= j < |t| ensures t[j].0 != x.0 {
        assert c[0] == x && c[j + 1] == t[j];
      }
      forall i, j | 0 <= i < j < |t| ensures t[i].0 != t[j].0 {
        assert c[i + 1] == t[i] && c[j + 1] == t[j];
      }
      forall i | 0 <= i < |t| ensures t[i].1 >= 1 {
        assert c[i + 1] == t[i];
      }
    }
    if x.1 >= 1 && x.0 !in KeysOf(t) && WellFormedCounter(t) {
      forall i, j | 0 <= i < j < |c| ensures c[i].0 != c[j].0 {
        if i > 0 {
          assert c[i] == t[i - 1] && c[j] == t[j - 1];
        } else {
          assert c[j] == t[j - 1];
        }
      }
    }
  }

  /** Counting a key adds it to the key set, and appends it when it is new. */
  lemma {:induction false} BumpKeys(c: Counter, k: string)
    ensures KeysOf(Bump(c, k)) == KeysOf(c) + {k}
    ensures k !in KeysOf(c) ==> Bump(c, k) == c + [(k, 1)]
  {
    if |c| > 0 {
      var r := Bump(c, k);
      if c[0].0 == k {
        assert r[1..] == c[1..];
      } else {
        BumpKeys(c[1..], k);
        assert r[1..] == Bump(c[1..], k);
      }
    }
  }

  /** Counting one more key adds one to the total. */
  lemma {:induction false} BumpTotal(c: Counter, k: string)
    ensures Total(Bump(c, k)) == Total(c) + 1
  {
    if |c| > 0 && c[0].0 != k {
      BumpTotal(c[1..], k);
      assert Bump(c, k)[1..] == Bump(c[1..], k);
    } else if |c| > 0 {
      assert Bump(c, k)[1..] == c[1..];
    }
  }

  /** Counting keeps the keys distinct and the counts positive. */
  lemma {:induction false} BumpWellFormed(c: Counter, k: string)
    requires WellFormedCounter(c)
    ensures WellFormedCounter(Bump(c, k))
  {
    if |c| > 0 {
      var r := Bump(c, k);
      assert c == [c[0]] + c[1..];
      ConsWellFormed(c[0], c[1..]);
      if c[0].0 == k {
        assert r == [r[0]] + c[1..];
        ConsWellFormed(r[0], c[1..]);
      } else {
        BumpWellFormed(c[1..], k);
        BumpKeys(c[1..], k);
        assert r == [c[0]] + Bump(c[1..], k);
        ConsWellFormed(c[0], Bump(c[1..], k));
      }
    }
  }

  /** In a well-formed counter the keys are exactly the names with a non-zero count. */
  lemma {:induction false} KeysAreCounted(c: Counter, k: string)
    requires WellFormedCounter(c)
    ensures k in KeysOf(c) <==> Get(c, k) > 0
  {
    if |c| > 0 {
      var rest := c[1..];
      assert WellFormedCounter(rest) by {
        assert forall i :: 0 <= i < |rest| ==> rest[i] == c[i + 1];
      }
      assert KeysOf(c) == {c[0].0} + KeysOf(rest) by {
        assert c == [c[0]] + rest;
      }
      KeysAreCounted(rest, k);
    }
  }

  /** `collections.Counter(keys)` built key by key, as the loop builds it. */
  function Tally(keys: seq<string>): (c: Counter)
    ensures WellFormedCounter(c)
  {
    if |keys| == 0 then []
    else
      var init := Tally(keys[..|keys| - 1]);
      BumpWellFormed(init, keys[|keys| - 1]);
      Bump(init, keys[|keys| - 1])
  }

  /** The tally counts every key exactly as often as it occurs, its counts add up to
      the number of keys, and its keys are exactly the keys that occur. */
  lemma {:induction false} TallyCounts(keys: seq<string>)
    ensures forall k :: Get(Tally(keys), k) == multiset(keys)[k]
    ensures Total(Tally(keys)) == |keys|
  {
    if |keys| > 0 {
      var init := keys[..|keys| - 1];
      TallyCounts(init);
      BumpTotal(Tally(init), keys[|keys| - 1]);
      assert keys == init + [keys[|keys| - 1]];
    }
  }

  // ---------------------------------------------------------------------------
  // _calculate_statistics
  // ---------------------------------------------------------------------------

  /** The `question_types` key of a question: its metadata type tag. */
  function TypeKey(q: LinkedQuestion): string {
    q.question.metadata.questionType
  }

  /** The `questions_per_passage` key of a question: `passage_id or "unknown"`. */
  function PassageKey(q: LinkedQuestion): (k: string)
    ensures q.passageId == None || q.passageId == Some([]) ==> k == UnknownPassage
    ensures q.passageId.Some? && q.passageId.value != [] ==> k == q.passageId.value
  {
    if q.passageId.Some? && q.passageId.value != [] then q.passageId.value else UnknownPassage
  }

  function TypeKeys(qs: seq<LinkedQuestion>): (ks: seq<string>)
    ensures |ks| == |qs| && forall i :: 0 <= i < |qs| ==> ks[i] == TypeKey(qs[i])
  {
    seq(|qs|, i requires 0 <= i < |qs| => TypeKey(qs[i]))
  }

  function PassageKeys(qs: seq<LinkedQuestion>): (ks: seq<string>)
    ensures |ks| == |qs| && forall i :: 0 <= i < |qs| ==> ks[i] == PassageKey(qs[i])
  {
    seq(|qs|, i requires 0 <= i < |qs| => PassageKey(qs[i]))
  }

  /** The `passage_stats` entry of one passage: both counts are `len(content)`. */
  function StatOf(p: Passage): (s: PassageStat)
    ensures s.id == p.passageId && s.questionRange == p.questionRange
    ensures s.wordCount == |p.content| && s.charCount == |p.content|
  {
    PassageStat(p.passageId, p.questionRange, |p.content|, |p.content|)
  }

  /** `_calculate_statistics`: one stat entry per passage, in passage order; the two
      counters count each question once, by type and by passage. */
  method CalculateStatistics(passages: seq<Passage>, questions: seq<LinkedQuestion>)
    returns (stats: Statistics)
    ensures |stats.passageStats| == |passages|
    ensures forall i :: 0 <= i < |passages| ==> stats.passageStats[i] == StatOf(passages[i])
    ensures WellFormedCounter(stats.questionTypes)
    ensures WellFormedCounter(stats.questionsPerPassage)
    ensures forall k :: Get(stats.questionTypes, k) == multiset(TypeKeys(questions))[k]
    ensures forall k :: Get(stats.questionsPerPassage, k) == multiset(PassageKeys(questions))[k]
    ensures Total(stats.questionTypes) == |questions|
    ensures Total(stats.questionsPerPassage) == |questions|
    ensures stats.questionTypes == Tally(TypeKeys(questions))
    ensures stats.questionsPerPassage == Tally(PassageKeys(questions))
  {
    var passageStats: seq<PassageStat> := [];
    for i := 0 to |passages|
      invariant |passageStats| == i
      invariant forall j :: 0 <= j < i ==> passageStats[j] == StatOf(passages[j])
    {
      passageStats := passageStats + [StatOf(passages[i])];
    }

    var types: Counter := [];
    var perPassage: Counter := [];
    for i := 0 to |questions|
      invariant types == Tally(TypeKeys(questions)[..i])
      invariant perPassage == Tally(PassageKeys(questions)[..i])
    {
      assert TypeKeys(questions)[..i + 1][..i] == TypeKeys(questions)[..i];
      assert PassageKeys(questions)[..i + 1][..i] == PassageKeys(questions)[..i];
      types := Bump(types, TypeKey(questions[i]));
      perPassage := Bump(perPassage, PassageKey(questions[i]));
    }
    assert TypeKeys(questions)[..|questions|] == TypeKeys(questions);
    assert PassageKeys(questions)[..|questions|] == PassageKeys(questions);
    TallyCounts(TypeKeys(questions));
    TallyCounts(PassageKeys(questions));
    stats := Statistics(passageStats, types, perPassage);
  }

  // ---------------------------------------------------------------------------
  // safe_title
  // ---------------------------------------------------------------------------

  /** The characters a directory name keeps: `c.isalnum() or c in (' ', '-', '_')`. */
  predicate IsTitleChar(c: char) {
    IsAlnum(c) || c == ' ' || c == '-' || c == '_'
  }

  predicate AllTitleChars(s: string) {
    forall i :: 0 <= i < |s| ==> IsTitleChar(s[i])
  }

  /** `"".join(c for c in title if …)` */
  function KeepTitleChars(s: string): (r: string)
    ensures AllTitleChars(r)
    ensures IsSubsequence(r, s)
    ensures AllTitleChars(s) ==> r == s
    ensures forall c :: multiset(r)[c] == if IsTitleChar(c) then multiset(s)[c] else 0
  {
    if |s| == 0 then []
    else
      assert s == [s[0]] + s[1..];
      var rest := KeepTitleChars(s[1..]);
      if IsTitleChar(s[0]) then
        var r := [s[0]] + rest;
        assert r[1..] == rest;
        r
      else
        assert |rest| > 0 ==> rest[0] != s[0];
        rest
  }

  /** A prefix of a subsequence is a subsequence. */
  lemma {:induction false} SubsequencePrefix<T>(a: seq<T>, b: seq<T>, k: nat)
    requires IsSubsequence(a, b) && k <= |a|
    ensures IsSubsequence(a[..k], b)
    decreases |b|
  {
    if k > 0 {
      if a[0] == b[0] {
        SubsequencePrefix(a[1..], b[1..], k - 1);
        assert a[..k][1..] == a[1..][..k - 1];
      } else {
        SubsequencePrefix(a, b[1..], k);
      }
    }
  }

  /** `safe_title`: only letters, digits, spaces, hyphens and underscores, in their
      original order, and no trailing space. */
  function SafeTitle(title: string): (r: string)
    ensures AllTitleChars(r)
    ensures IsSubsequence(r, title)
    ensures |r| == 0 || r[|r| - 1] != ' '
    ensures var kept := KeepTitleChars(title);
      && |r| <= |kept|
      && r == kept[..|r|]
      && forall i :: |r| <= i < |kept| ==> kept[i] == ' '
  {
    var kept := KeepTitleChars(title);
    var r := TrimRight(kept);
    SubsequencePrefix(kept, title, |r|);
    forall i | |r| <= i < |kept| ensures kept[i] == ' ' {
      TitleSpaceIsBlank(kept[i]);
    }
    r
  }

  /** The only whitespace character a title keeps is the plain space. */
  lemma TitleSpaceIsBlank(c: char)
    requires IsSpace(c)
    ensures IsTitleChar(c) <==> c == ' '
  {
  }

  /** A title is left unchanged exactly when it is already made of allowed characters
      and does not end in whitespace. */
  lemma SafeTitleFixpoint(title: string)
    ensures SafeTitle(title) == title <==> AllTitleChars(title) && (|title| == 0 || !IsSpace(title[|title| - 1]))
  {
  }

  /** Sanitising twice is the same as sanitising once. */
  lemma SafeTitleIdempotent(title: string)
    ensures SafeTitle(SafeTitle(title)) == SafeTitle(title)
  {
    var r := SafeTitle(title);
    assert |TrimRight(title)| == 0 || !IsSpace(TrimRight(title)[|TrimRight(title)| - 1]);
    SafeTitleFixpoint(r);
  }
}

=== FILE: structured_parser.dfy ===
/**
 `parse_passage_and_questions` of parser/structured_parser.py.

 The text is split into lines, and one left-to-right scan over the stripped,
 non-blank lines runs a two-state machine: before the first line that contains
 a section trigger every line is passage text; the trigger line itself is
 dropped; after it, a line that starts with a digit opens a new question block
 and any other line extends the open block. Each block then becomes a
 `Question` (numbering stripped from the stem, circled-numeral lines kept as
 choice text, type from `Classify`), and blocks whose stem is shorter than two
 characters are discarded.
 */
module StructuredParser {
  import opened Wrappers
  import opened Text
  import opened Classifier
  import opened QuestionModel
  import opened PassageModel

  /** Phrases whose first appearance switches the scan from passage text to questions. */
  const SectionTriggers: seq<string> :=
    ["문제", "둘째 걸음", "셋째 걸음", "넷째 걸음", "다음 글을 읽고", "퀴즈 정답과 해설"]

  predicate IsSectionTrigger(line: string) {
    ContainsAny(line, SectionTriggers)
  }

  /** `re.match(r"^\d+[\).]?", line)`: since the punctuation is optional, this holds
      exactly when the line starts with a digit. */
  predicate StartsQuestion(line: string) {
    |line| > 0 && IsDigit(line[0])
  }

  // ---------------------------------------------------------------------------
  // The lines the loop acts on
  // ---------------------------------------------------------------------------

  /** The stripped form of every line that is not blank, in order: the loop strips
      each line and skips it (`continue`) when nothing is left. */
  function KeptLines(lines: seq<string>): (r: seq<string>)
    ensures forall i :: 0 <= i < |r| ==> r[i] != [] && IsStripped(r[i])
  {
    if |lines| == 0 then [] else KeptLines(lines[..|lines| - 1]) + KeptLine(lines[|lines| - 1])
  }

  /** The contribution of one line: its stripped form, or nothing when it is blank. */
  function KeptLine(line: string): (r: seq<string>)
    ensures |r| <= 1
    ensures forall i :: 0 <= i < |r| ==> r[i] != [] && IsStripped(r[i])
  {
    var s := Strip(line);
    if s == [] then [] else [s]
  }

  /** A single line is kept, stripped, exactly when it is not blank. */
  lemma KeptLinesOfOne(l: string)
    ensures KeptLines([l]) == if Strip(l) == [] then [] else [Strip(l)]
  {
    assert [l][..0] == [];
  }

  /** Lines are filtered one at a time: the kept lines of two runs of lines are the
      kept lines of the first followed by those of the second. */
  lemma {:induction false} KeptLinesAppend(a: seq<string>, b: seq<string>)
    ensures KeptLines(a + b) == KeptLines(a) + KeptLines(b)
  {
    if |b| == 0 {
      assert a + b == a;
    } else {
      var init, last := b[..|b| - 1], b[|b| - 1];
      SnocParts(a, b);
      KeptLinesAppend(a, init);
      KeptLinesSnoc(a + init, last);
      KeptLinesSnoc(init, last);
      ConcatAssoc(KeptLines(a), KeptLines(init), KeptLine(last));
    }
  }

  lemma SnocParts<T>(a: seq<T>, b: seq<T>)
    requires |b| > 0
    ensures b == b[..|b| - 1] + [b[|b| - 1]]
    ensures a + b == (a + b[..|b| - 1]) + [b[|b| - 1]]
  {
  }

  lemma ConcatAssoc<T>(x: seq<T>, y: seq<T>, z: seq<T>)
    ensures (x + y) + z == x + (y + z)
  {
  }

  lemma KeptLinesSnoc(lines: seq<string>, l: string)
    ensures KeptLines(lines + [l]) == KeptLines(lines) + KeptLine(l)
  {
    assert (lines + [l])[..|lines|] == lines;
  }

  /** Whether each kept line contains a section trigger. */
  function TriggerFlags(kept: seq<string>): (f: seq<bool>)
    ensures |f| == |kept|
    ensures forall i :: 0 <= i < |kept| ==> f[i] == IsSectionTrigger(kept[i])
  {
    seq(|kept|, i requires 0 <= i < |kept| => IsSectionTrigger(kept[i]))
  }

  /** The index of the first set flag. */
  function FirstSet(flags: seq<bool>): (r: Option<nat>)
    ensures r.Some? ==> r.value < |flags| && flags[r.value]
    ensures r.Some? ==> forall i :: 0 <= i < r.value ==> !flags[i]
    ensures r.None? ==> forall i :: 0 <= i < |flags| ==> !flags[i]
  {
    if |flags| == 0 then None
    else if flags[0] then Some(0)
    else
      match FirstSet(flags[1..])
      case None => None
      case Some(k) => Some(k + 1)
  }

  /** The index of the first kept line that contains a section trigger. */
  function FirstTrigger(kept: seq<string>): (r: Option<nat>)
    ensures r.Some? ==> r.value < |kept| && IsSectionTrigger(kept[r.value])
    ensures r.Some? ==> forall i :: 0 <= i < r.value ==> !IsSectionTrigger(kept[i])
    ensures r.None? ==> forall i :: 0 <= i < |kept| ==> !IsSectionTrigger(kept[i])
  {
    FirstSet(TriggerFlags(kept))
  }

  // ---------------------------------------------------------------------------
  // The scan
  // ---------------------------------------------------------------------------

  /** The loop's variables: `is_question_section`, `passage_lines`,
      `question_blocks` and `current_block`. */
  datatype ScanState = ScanState(
    inSection: bool,
    passageLines: seq<string>,
    blocks: seq<seq<string>>,
    current: seq<string>)

  const Initial: ScanState := ScanState(false, [], [], [])

  /** One iteration of the loop for a kept line `s`; `trigger` says whether `s`
      contains a section trigger. */
  function Step(st: ScanState, s: string, trigger: bool): ScanState {
    if !st.inSection && trigger then st.(inSection := true)
    else if st.inSection then
      if StartsQuestion(s) then
        st.(blocks := if st.current != [] then st.blocks + [st.current] else st.blocks,
            current := [s])
      else
        st.(current := st.current + [s])
    else
      st.(passageLines := st.passageLines + [s])
  }

  /** The whole loop: `Step` folded over the kept lines from first to last. */
  function Scan(kept: seq<string>, flags: seq<bool>): ScanState
    requires |flags| == |kept|
  {
    if |kept| == 0 then Initial
    else Step(Scan(kept[..|kept| - 1], flags[..|kept| - 1]), kept[|kept| - 1], flags[|kept| - 1])
  }

  /** The blocks after the loop, with the still-open block appended if it is non-empty. */
  function ClosedBlocks(st: ScanState): seq<seq<string>> {
    if st.current != [] then st.blocks + [st.current] else st.blocks
  }

  // ---------------------------------------------------------------------------
  // What the scan computes
  // ---------------------------------------------------------------------------

  /** Every block is non-empty, every block but the first starts with a digit, and no
      line other than a block's first one starts with a digit. Together with the
      concatenation of the blocks this determines the blocks uniquely. */
  predicate WellFormedBlocks(bs: seq<seq<string>>) {
    && (forall j :: 0 <= j < |bs| ==> |bs[j]| > 0)
    && (forall j :: 0 < j < |bs| ==> StartsQuestion(bs[j][0]))
    && (forall j, m :: 0 <= j < |bs| && 0 < m < |bs[j]| ==> !StartsQuestion(bs[j][m]))
  }

  /** What the scan state says about the kept lines read so far. */
  predicate ScanInvariant(st: ScanState, kept: seq<string>, flags: seq<bool>) {
    && (!st.inSection ==>
          FirstSet(flags).None? && st.passageLines == kept && st.blocks == [] && st.current == [])
    && (st.inSection ==>
          && FirstSet(flags).Some?
          && FirstSet(flags).value < |kept|
          && st.passageLines == kept[..FirstSet(flags).value]
          && Flatten(ClosedBlocks(st)) == kept[FirstSet(flags).value + 1..]
          && (st.current == [] ==> st.blocks == [])
          && WellFormedBlocks(ClosedBlocks(st)))
  }

  lemma {:induction false} FirstSetSnoc(flags: seq<bool>, b: bool)
    ensures FirstSet(flags + [b]) ==
      if FirstSet(flags).Some? then FirstSet(flags)
      else if b then Some(|flags|)
      else None
  {
    if |flags| == 0 {
      assert flags + [b] == [b];
      assert [b][1..] == [];
    } else {
      assert (flags + [b])[0] == flags[0];
      assert (flags + [b])[1..] == flags[1..] + [b];
      FirstSetSnoc(flags[1..], b);
    }
  }

  /** In section mode a line that starts with a digit opens a new block. */
  lemma StepOpensBlock(st: ScanState, kept: seq<string>, flags: seq<bool>, s: string, b: bool)
    requires |flags| == |kept| && ScanInvariant(st, kept, flags) && st.inSection
    requires StartsQuestion(s)
    ensures ScanInvariant(Step(st, s, b), kept + [s], flags + [b])
  {
    var st' := Step(st, s, b);
    var kept' := kept + [s];
    FirstSetSnoc(flags, b);
    var k := FirstSet(flags).value;
    assert kept'[..k] == kept[..k];
    assert kept'[k + 1..] == kept[k + 1..] + [s];
    assert ClosedBlocks(st') == ClosedBlocks(st) + [[s]];
    FlattenSnoc(ClosedBlocks(st), [s]);
  }

  /** In section mode any other line extends the open block. */
  lemma StepExtendsBlock(st: ScanState, kept: seq<string>, flags: seq<bool>, s: string, b: bool)
    requires |flags| == |kept| && ScanInvariant(st, kept, flags) && st.inSection
    requires !StartsQuestion(s)
    ensures ScanInvariant(Step(st, s, b), kept + [s], flags + [b])
  {
    var st' := Step(st, s, b);
    assert st' == st.(current := st.current + [s]);
    var kept' := kept + [s];
    FirstSetSnoc(flags, b);
    var k := FirstSet(flags).value;
    assert kept'[..k] == kept[..k];
    assert kept'[k + 1..] == kept[k + 1..] + [s];
    if st.current == [] {
      assert ClosedBlocks(st') == [[s]];
      assert Flatten(ClosedBlocks(st')) == [s];
    } else {
      ExtendLastBlock(st.blocks, st.current, s);
      FlattenSnoc(st.blocks, st.current);
      FlattenSnoc(st.blocks, st.current + [s]);
    }
  }

  /** Appending a line that does not start with a digit to the last block keeps the
      blocks well formed. */
  lemma ExtendLastBlock(bs: seq<seq<string>>, cur: seq<string>, s: string)
    requires cur != [] && WellFormedBlocks(bs + [cur]) && !StartsQuestion(s)
    ensures WellFormedBlocks(bs + [cur + [s]])
  {
    var before := bs + [cur];
    var after := bs + [cur + [s]];
    assert forall j :: 0 <= j < |bs| ==> after[j] == before[j];
    assert after[|bs|][0] == before[|bs|][0];
    forall m | 0 < m < |after[|bs|]| ensures !StartsQuestion(after[|bs|][m]) {
      if m < |cur| {
        assert after[|bs|][m] == before[|bs|][m];
      }
    }
  }

  /** Before the section starts a non-trigger line is passage text; a trigger line
      starts the section and is dropped. */
  lemma StepBeforeSection(st: ScanState, kept: seq<string>, flags: seq<bool>, s: string, b: bool)
    requires |flags| == |kept| && ScanInvariant(st, kept, flags) && !st.inSection
    ensures ScanInvariant(Step(st, s, b), kept + [s], flags + [b])
  {
    var kept' := kept + [s];
    FirstSetSnoc(flags, b);
    if b {
      assert kept'[..|kept|] == kept;
      assert kept'[|kept| + 1..] == [];
    }
  }

  lemma StepKeepsInvariant(st: ScanState, kept: seq<string>, flags: seq<bool>, s: string, b: bool)
    requires |flags| == |kept| && ScanInvariant(st, kept, flags)
    ensures ScanInvariant(Step(st, s, b), kept + [s], flags + [b])
  {
    if !st.inSection {
      StepBeforeSection(st, kept, flags, s, b);
    } else if StartsQuestion(s) {
      StepOpensBlock(st, kept, flags, s, b);
    } else {
      StepExtendsBlock(st, kept, flags, s, b);
    }
  }

  lemma {:induction false} ScanMaintainsInvariant(kept: seq<string>, flags: seq<bool>)
    requires |flags| == |kept|
    ensures ScanInvariant(Scan(kept, flags), kept, flags)
  {
    if |kept| > 0 {
      var n := |kept| - 1;
      ScanMaintainsInvariant(kept[..n], flags[..n]);
      StepKeepsInvariant(Scan(kept[..n], flags[..n]), kept[..n], flags[..n], kept[n], flags[n]);
      assert kept[..n] + [kept[n]] == kept;
      assert flags[..n] + [flags[n]] == flags;
    }
  }

  /** The result of the scan: the passage lines and the question blocks. */
  datatype Segments = Segments(passageLines: seq<string>, blocks: seq<seq<string>>)

  /** The scan over a list of kept lines: without a trigger line everything is passage
      text and there are no blocks; otherwise the lines before the first trigger line
      are the passage, the trigger line is dropped, and the blocks partition the lines
      after it. */
  function SegmentKept(kept: seq<string>): (r: Segments)
    ensures FirstTrigger(kept).None? ==> r.passageLines == kept && r.blocks == []
    ensures FirstTrigger(kept).Some? ==>
      && r.passageLines == kept[..FirstTrigger(kept).value]
      && Flatten(r.blocks) == kept[FirstTrigger(kept).value + 1..]
    ensures WellFormedBlocks(r.blocks)
  {
    var flags := TriggerFlags(kept);
    var st := Scan(kept, flags);
    ScanMaintainsInvariant(kept, flags);
    Segments(st.passageLines, ClosedBlocks(st))
  }

  /** Lines 26-53: segmentation of a text, as `SegmentKept` of its stripped
      non-blank lines. */
  function Segment(text: string): (r: Segments)
    ensures var kept := KeptLines(SplitLines(text));
      && (FirstTrigger(kept).None? ==> r.passageLines == kept && r.blocks == [])
      && (FirstTrigger(kept).Some? ==>
            && r.passageLines == kept[..FirstTrigger(kept).value]
            && Flatten(r.blocks) == kept[FirstTrigger(kept).value + 1..])
    ensures WellFormedBlocks(r.blocks)
  {
    SegmentKept(KeptLines(SplitLines(text)))
  }

  /** Every passage line is a kept line: non-blank and stripped. */
  lemma PassageLinesAreKept(text: string)
    ensures forall i :: 0 <= i < |Segment(text).passageLines| ==>
      Segment(text).passageLines[i] in KeptLines(SplitLines(text))
    ensures forall i :: 0 <= i < |Segment(text).passageLines| ==>
      Segment(text).passageLines[i] != [] && IsStripped(Segment(text).passageLines[i])
  {
    var kept := KeptLines(SplitLines(text));
    var ls := Segment(text).passageLines;
    assert ls == SegmentKept(kept).passageLines;
    forall i | 0 <= i < |ls| ensures ls[i] in kept && ls[i] != [] && IsStripped(ls[i]) {
      assert ls[i] == kept[i];
    }
  }

  // ---------------------------------------------------------------------------
  // Assembling a question from a block
  // ---------------------------------------------------------------------------

  /** `s` starts with a numbering token: digits followed by "." or ")". */
  predicate HasNumbering(s: string) {
    var n := LeadingDigits(s);
    0 < n < |s| && (s[n] == '.' || s[n] == ')')
  }

  /** `re.sub(r"^\d+[\).]\s*", "", s)`: removes one numbering token and the whitespace
      after it; text without a numbering token is returned unchanged. */
  function DropNumbering(s: string): (r: string)
    ensures |r| <= |s| && r == s[|s| - |r|..]
    ensures !HasNumbering(s) ==> r == s
    ensures HasNumbering(s) ==> |r| < |s| && (|r| == 0 || !IsSpace(r[0]))
  {
    var n := LeadingDigits(s);
    if HasNumbering(s) then TrimLeft(s[n + 1..]) else s
  }

  /** Prefixing text with a numbering token, then dropping the numbering, gives the text back. */
  lemma NumberingRoundTrip(digits: string, mark: char, spaces: string, body: string)
    requires |digits| > 0 && forall i :: 0 <= i < |digits| ==> IsDigit(digits[i])
    requires mark == '.' || mark == ')'
    requires forall i :: 0 <= i < |spaces| ==> IsSpace(spaces[i])
    requires |body| == 0 || !IsSpace(body[0])
    ensures DropNumbering(digits + [mark] + spaces + body) == body
  {
    var s := digits + [mark] + spaces + body;
    LeadingDigitsOfToken(digits, [mark] + spaces + body);
    assert s == digits + ([mark] + spaces + body);
    assert s[|digits| + 1..] == spaces + body;
    TrimLeftOverSpaces(spaces, body);
  }

  lemma {:induction false} TrimLeftOverSpaces(spaces: string, body: string)
    requires forall i :: 0 <= i < |spaces| ==> IsSpace(spaces[i])
    requires |body| == 0 || !IsSpace(body[0])
    ensures TrimLeft(spaces + body) == body
  {
    if |spaces| > 0 {
      assert (spaces + body)[1..] == spaces[1..] + body;
      TrimLeftOverSpaces(spaces[1..], body);
    } else {
      assert spaces + body == body;
    }
  }

  /** The stem of a block: its lines joined by spaces, one numbering token removed, stripped. */
  function StemOf(block: seq<string>): (r: string)
    ensures IsStripped(r)
    ensures |r| <= |JoinWith(' ', block)|
  {
    Strip(DropNumbering(JoinWith(' ', block)))
  }

  /** The lines of a block that contain a circled numeral, in block order. */
  function ChoiceLines(block: seq<string>): (r: seq<string>)
    ensures forall i :: 0 <= i < |r| ==> HasCircledNumeral(r[i])
    ensures forall l :: l in block && HasCircledNumeral(l) ==> l in r
    ensures IsSubsequence(r, block)
    ensures forall l :: multiset(r)[l] == if HasCircledNumeral(l) then multiset(block)[l] else 0
  {
    if |block| == 0 then []
    else
      assert block == [block[0]] + block[1..];
      var rest := ChoiceLines(block[1..]);
      if HasCircledNumeral(block[0]) then
        var r := [block[0]] + rest;
        assert r[1..] == rest;
        r
      else
        assert |rest| > 0 ==> rest[0] != block[0];
        rest
  }

  /** `"\n".join(choices) if choices else None` */
  function ChoicesText(block: seq<string>): (r: Option<string>)
    ensures r.None? <==> forall i :: 0 <= i < |block| ==> !HasCircledNumeral(block[i])
  {
    var cs := ChoiceLines(block);
    if cs == [] then
      assert forall i :: 0 <= i < |block| ==> !HasCircledNumeral(block[i]) by {
        forall i | 0 <= i < |block| ensures !HasCircledNumeral(block[i]) {
          assert block[i] in block;
        }
      }
      None
    else
      assert HasCircledNumeral(cs[0]);
      SubsequenceMember(cs, block, 0);
      Some(JoinWith('\n', cs))
  }

  lemma {:induction false} SubsequenceMember<T>(a: seq<T>, b: seq<T>, i: nat)
    requires IsSubsequence(a, b) && i < |a|
    ensures a[i] in b
    decreases |b|
  {
    if a[0] == b[0] {
      if i > 0 {
        SubsequenceMember(a[1..], b[1..], i - 1);
      }
    } else {
      SubsequenceMember(a, b[1..], i);
    }
  }

  /** The choice text splits back into exactly the choice lines of the block. */
  lemma ChoicesTextSplitsIntoChoiceLines(block: seq<string>)
    requires forall i :: 0 <= i < |block| ==> '\n' !in block[i]
    requires ChoicesText(block).Some?
    ensures SplitOn(ChoicesText(block).value, '\n') == ChoiceLines(block)
  {
    var cs := ChoiceLines(block);
    forall i | 0 <= i < |cs| ensures '\n' !in cs[i] {
      SubsequenceMember(cs, block, i);
    }
    SplitJoinRoundTrip('\n', cs);
  }

  /** Shape every question built by the parser has. */
  predicate IsParsedQuestion(q: Question) {
    && |q.stem| >= 2
    && IsStripped(q.stem)
    && q.answer.None?
    && q.explanation.None?
    && q.conditions.None?
    && q.metadata.questionType in TypeNames
    && q.metadata.difficulty == MediumDifficulty
    && q.metadata.points.None?
  }

  /** Lines 59-86 for one block: `None` when the block is empty or its stem is
      shorter than two characters; otherwise the question with that stem, the
      block's choice text, no answer, and metadata (Classify of the whole block, "중",
      no points). */
  function AssembleQuestion(block: seq<string>): (r: Option<Question>)
    ensures r.Some? ==> IsParsedQuestion(r.value)
  {
    if |block| == 0 then None
    else
      var fullText := JoinWith(' ', block);
      var stem := StemOf(block);
      if |stem| < 2 then None
      else
        var metadata := Metadata(Classify(fullText).Name(), MediumDifficulty, None);
        Some(NewQuestion(stem, None, ChoicesText(block), None, None, Some(metadata)))
  }

  /** A block yields a question exactly when its stem has at least two characters; the
      question then carries that stem, the block's choice text and the tag `Classify`
      gives the whole block. */
  lemma AssembledQuestion(block: seq<string>)
    ensures AssembleQuestion(block).Some? <==> |StemOf(block)| >= 2
    ensures AssembleQuestion(block).Some? ==>
      && AssembleQuestion(block).value.stem == StemOf(block)
      && AssembleQuestion(block).value.choicesText == ChoicesText(block)
      && AssembleQuestion(block).value.metadata.questionType == Classify(JoinWith(' ', block)).Name()
  {
    if |block| == 0 {
      assert StemOf(block) == [];
    }
  }

  /** The outcome of `AssembleQuestion` for each block, in block order. */
  function Outcomes(blocks: seq<seq<string>>): (os: seq<Option<Question>>)
    ensures |os| == |blocks|
    ensures forall j :: 0 <= j < |blocks| ==> os[j] == AssembleQuestion(blocks[j])
  {
    seq(|blocks|, j requires 0 <= j < |blocks| => AssembleQuestion(blocks[j]))
  }

  /** Lines 58-86: the questions of a list of blocks, in block order, with the
      short-stem blocks dropped. */
  function AssembleAll(blocks: seq<seq<string>>): (qs: seq<Question>)
    ensures |qs| <= |blocks|
    ensures |qs| == |blocks| <==> forall j :: 0 <= j < |blocks| ==> AssembleQuestion(blocks[j]).Some?
    ensures forall i :: 0 <= i < |qs| ==> IsParsedQuestion(qs[i])
  {
    var os := Outcomes(blocks);
    var qs := Values(os);
    assert forall i :: 0 <= i < |qs| ==> IsParsedQuestion(qs[i]) by {
      forall i | 0 <= i < |qs| ensures IsParsedQuestion(qs[i]) {
        var j :| 0 <= j < |os| && os[j] == Some(qs[i]);
        assert AssembleQuestion(blocks[j]) == Some(qs[i]);
      }
    }
    qs
  }

  /** Assembling is block-wise: the questions of two runs of blocks are the questions of
      the first run followed by those of the second, so block order is kept. */
  lemma AssembleAllAppend(a: seq<seq<string>>, b: seq<seq<string>>)
    ensures AssembleAll(a + b) == AssembleAll(a) + AssembleAll(b)
  {
    assert Outcomes(a + b) == Outcomes(a) + Outcomes(b) by {
      forall j | 0 <= j < |a + b| ensures Outcomes(a + b)[j] == (Outcomes(a) + Outcomes(b))[j] {
        if j < |a| {
          assert (a + b)[j] == a[j];
        } else {
          assert (a + b)[j] == b[j - |a|];
        }
      }
    }
    ValuesAppend(Outcomes(a), Outcomes(b));
  }

  /** When every block has a stem of at least two characters, the i-th question is the
      one assembled from the i-th block. */
  lemma AssembleAllKeepsEveryBlock(blocks: seq<seq<string>>)
    ensures (forall j :: 0 <= j < |blocks| ==> |StemOf(blocks[j])| >= 2) ==>
      && |AssembleAll(blocks)| == |blocks|
      && forall i :: 0 <= i < |blocks| ==> Some(AssembleAll(blocks)[i]) == AssembleQuestion(blocks[i])
  {
    if forall j :: 0 <= j < |blocks| ==> |StemOf(blocks[j])| >= 2 {
      var os := Outcomes(blocks);
      forall j | 0 <= j < |blocks| ensures os[j].Some? {
        AssembledQuestion(blocks[j]);
      }
      ValuesAllPresent(os);
    }
  }

  // ---------------------------------------------------------------------------
  // The parser
  // ---------------------------------------------------------------------------

  /** The passage and the questions of a text. */
  function Parse(text: string): (r: (Passage, seq<Question>))
    ensures r.0.passageId == DefaultPassageId
    ensures r.0.questionRange.None? && r.0.instruction.None? && r.0.imagePath.None?
    ensures r.0.content == JoinWith('\n', Segment(text).passageLines)
    ensures |r.1| <= |Segment(text).blocks|
    ensures forall i :: 0 <= i < |r.1| ==> IsParsedQuestion(r.1[i])
    ensures FirstTrigger(KeptLines(SplitLines(text))).None? ==> r.1 == []
    ensures r.1 == AssembleAll(Segment(text).blocks)
  {
    var seg := Segment(text);
    var joined := JoinWith('\n', seg.passageLines);
    PassageLinesAreKept(text);
    JoinOfStrippedLinesIsStripped(seg.passageLines);
    StripFixpoint(joined);
    (NewPassage(Strip(joined)), AssembleAll(seg.blocks))
  }

  /** No block is lost when every block has a stem of at least two characters: the
      i-th question is then the one assembled from the i-th block. */
  lemma ParseKeepsEveryBlock(text: string)
    ensures var blocks := Segment(text).blocks;
      (forall j :: 0 <= j < |blocks| ==> |StemOf(blocks[j])| >= 2) ==>
        && |Parse(text).1| == |blocks|
        && forall i :: 0 <= i < |blocks| ==> Some(Parse(text).1[i]) == AssembleQuestion(blocks[i])
  {
    AssembleAllKeepsEveryBlock(Segment(text).blocks);
  }

  lemma {:induction false} JoinOfStrippedLinesIsStripped(lines: seq<string>)
    requires forall i :: 0 <= i < |lines| ==> lines[i] != [] && IsStripped(lines[i])
    ensures IsStripped(JoinWith('\n', lines))
    ensures |lines| > 0 ==> |JoinWith('\n', lines)| > 0 && JoinWith('\n', lines)[0] == lines[0][0]
  {
    if |lines| > 1 {
      JoinOfStrippedLinesIsStripped(lines[1..]);
    }
  }

  /** The passage content is the passage lines joined by newlines: splitting it on
      newlines gives back exactly those lines, none of them blank. */
  lemma PassageContentSplitsIntoLines(text: string)
    ensures Segment(text).passageLines != [] ==>
      SplitOn(Parse(text).0.content, '\n') == Segment(text).passageLines
  {
    var ls := Segment(text).passageLines;
    if ls != [] {
      var kept := KeptLines(SplitLines(text));
      KeptLinesAreSingleLines(SplitLines(text));
      PassageLinesAreKept(text);
      forall i | 0 <= i < |ls| ensures '\n' !in ls[i] {
        assert ls[i] in kept;
        assert IsSingleLine(ls[i]);
      }
      SplitJoinRoundTrip('\n', ls);
    }
  }

  lemma {:induction false} KeptLinesAreSingleLines(lines: seq<string>)
    requires forall i :: 0 <= i < |lines| ==> IsSingleLine(lines[i])
    ensures forall i :: 0 <= i < |KeptLines(lines)| ==> IsSingleLine(KeptLines(lines)[i])
  {
    if |lines| > 0 {
      var init := lines[..|lines| - 1];
      KeptLinesAreSingleLines(init);
      StripKeepsSingleLine(lines[|lines| - 1]);
    }
  }

  lemma StripKeepsSingleLine(l: string)
    requires IsSingleLine(l)
    ensures IsSingleLine(Strip(l))
  {
    var s := Strip(l);
    forall j | 0 <= j < |s| ensures !IsLineBreak(s[j]) {
      assert s[j] == l[StripStart(l) + j];
    }
  }
}

=== FILE: testlog.dfy ===
/**
 check_testlog.py: a table of four "bad" patterns that signal a broken text
 extraction, and `check_file`, which collects, pattern by pattern in table order,
 every non-overlapping match `re.finditer` reports as (start, matched text).
 The file is modelled by its content string.
 */
module TestLogCheck {
  import opened Text
  import opened Finditer

  // ---------------------------------------------------------------------------
  // Patterns
  // ---------------------------------------------------------------------------

  /** The three shapes of pattern the table uses:
        Literal(t)               the text `t` itself;
        EmptyBrackets            `[\[\(]\s*[\]\)]`: an opening bracket, whitespace, a closing bracket;
        RepeatedSyllable(extra)  `([가-힣])\1{extra,}`: a syllable followed by at least
                                 `extra` more copies of itself. */
  datatype BadPattern = Literal(text: string) | EmptyBrackets | RepeatedSyllable(extra: nat)

  /** `BAD_PATTERNS`, in order. The fourth entry is `\1{2,}`: three copies at least. */
  const BadPatterns: seq<BadPattern> :=
    [Literal("현존재쌤"), Literal("(cid:127)"), EmptyBrackets, RepeatedSyllable(2)]

  predicate IsOpeningBracket(c: char) {
    c == '[' || c == '('
  }

  predicate IsClosingBracket(c: char) {
    c == ']' || c == ')'
  }

  /** The number of whitespace characters starting at index `i`. */
  function SpaceRun(s: string, i: nat): (n: nat)
    requires i <= |s|
    ensures i + n <= |s|
    ensures forall j :: i <= j < i + n ==> IsSpace(s[j])
    ensures i + n < |s| ==> !IsSpace(s[i + n])
    decreases |s| - i
  {
    if i < |s| && IsSpace(s[i]) then 1 + SpaceRun(s, i + 1) else 0
  }

  /** The number of copies of `c` in a row starting at index `i`. */
  function CharRun(s: string, i: nat, c: char): (n: nat)
    requires i <= |s|
    ensures i + n <= |s|
    ensures forall j :: i <= j < i + n ==> s[j] == c
    ensures i + n < |s| ==> s[i + n] != c
    decreases |s| - i
  {
    if i < |s| && s[i] == c then 1 + CharRun(s, i + 1, c) else 0
  }

  /** The length of the match of `p` that starts at index `i`, or 0 if `p` does not
      match there. Both regex quantifiers are greedy and a shorter choice never
      lets the rest match, so the match is the maximal run. An empty literal is
      treated as matching nowhere; the table has none. */
  function MatchLength(p: BadPattern, s: string, i: nat): (n: nat)
    requires i <= |s|
    ensures i + n <= |s|
    ensures p.Literal? ==> (n > 0 <==> |p.text| > 0 && OccursAt(s, p.text, i))
    ensures p.Literal? && n > 0 ==> n == |p.text|
    ensures p.EmptyBrackets? && n > 0 ==>
      n >= 2 && IsOpeningBracket(s[i]) && IsClosingBracket(s[i + n - 1]) &&
      forall m :: i < m < i + n - 1 ==> IsSpace(s[m])
    ensures p.RepeatedSyllable? ==>
      (n > 0 <==> i < |s| && IsHangulSyllable(s[i]) && CharRun(s, i, s[i]) >= 1 + p.extra)
    ensures p.RepeatedSyllable? && n > 0 ==> n == CharRun(s, i, s[i])
  {
    match p
    case Literal(t) =>
      if |t| > 0 && OccursAt(s, t, i) then |t| else 0
    case EmptyBrackets =>
      if i < |s| && IsOpeningBracket(s[i]) then
        var k := SpaceRun(s, i + 1);
        if i + 1 + k < |s| && IsClosingBracket(s[i + 1 + k]) then k + 2 else 0
      else 0
    case RepeatedSyllable(extra) =>
      if i < |s| && IsHangulSyllable(s[i]) then
        var k := CharRun(s, i, s[i]);
        if k >= 1 + extra then k else 0
      else 0
  }

  // ---------------------------------------------------------------------------
  // re.finditer
  // ---------------------------------------------------------------------------

  /** `issue` records a genuine match of `p` in `s`: its text is the slice of `s` at
      its position, and that slice is exactly what `p` matches there. */
  predicate IsMatch(p: BadPattern, s: string, issue: Issue) {
    Located(s, issue) && |issue.text| > 0 && MatchLength(p, s, issue.pos) == |issue.text|
  }

  /** The match length of `p` at every position of `s`. */
  function MatchTable(p: BadPattern, s: string): (m: seq<nat>)
    ensures FitsText(m, s)
    ensures forall i :: 0 <= i < |s| ==> m[i] == MatchLength(p, s, i)
  {
    seq(|s|, i requires 0 <= i < |s| => MatchLength(p, s, i))
  }

  /** `re.finditer(p, s)` from index `from`: the issues lie in `s`, come in increasing
      order and do not overlap. */
  function FindAll(p: BadPattern, s: string, from: nat): (r: seq<Issue>)
    requires from <= |s|
    ensures forall k :: 0 <= k < |r| ==> from <= r[k].pos && Located(s, r[k]) && |r[k].text| > 0
    ensures forall k :: 0 <= k < |r| - 1 ==> r[k].pos < r[k + 1].pos
    ensures forall k :: 0 <= k < |r| - 1 ==> r[k].pos + |r[k].text| <= r[k + 1].pos
  {
    Scan(MatchTable(p, s), s, from)
  }

  /** Every reported issue is a genuine match: exactly what `p` matches at its position. */
  lemma FindAllSound(p: BadPattern, s: string, from: nat, k: nat)
    requires from <= |s| && k < |FindAll(p, s, from)|
    ensures IsMatch(p, s, FindAll(p, s, from)[k])
  {
    var m := MatchTable(p, s);
    assert Found(m, s, Scan(m, s, from)[k]);
  }

  /** Nothing is skipped: every position from `from` on where `p` matches lies inside
      the reported match `k`. */
  lemma FindAllCovers(p: BadPattern, s: string, from: nat, j: nat) returns (k: nat)
    requires from <= j < |s| && MatchLength(p, s, j) > 0
    ensures k < |FindAll(p, s, from)| && Covers(FindAll(p, s, from)[k], j)
  {
    k := ScanCovers(MatchTable(p, s), s, from, j);
  }

  /** No issue is reported exactly when the pattern matches nowhere from `from` on. */
  lemma FindAllEmpty(p: BadPattern, s: string, from: nat)
    requires from <= |s|
    ensures FindAll(p, s, from) == [] <==> forall j :: from <= j < |s| ==> MatchLength(p, s, j) == 0
  {
    ScanEmpty(MatchTable(p, s), s, from);
    var r := FindAll(p, s, from);
    if r != [] {
      FindAllSound(p, s, from, 0);
    }
  }

  // ---------------------------------------------------------------------------
  // check_file
  // ---------------------------------------------------------------------------

  /** The loop of `check_file` over a table of patterns: all issues of the first
      pattern, then all of the second, and so on. */
  function CheckWith(table: seq<BadPattern>, content: string): (r: seq<Issue>)
    ensures forall k :: 0 <= k < |r| ==> Located(content, r[k])
  {
    if |table| == 0 then []
    else
      var first := FindAll(table[0], content, 0);
      var rest := CheckWith(table[1..], content);
      LocatedAppend(content, first, rest);
      first + rest
  }

  lemma LocatedAppend(content: string, a: seq<Issue>, b: seq<Issue>)
    requires forall k :: 0 <= k < |a| ==> Located(content, a[k])
    requires forall k :: 0 <= k < |b| ==> Located(content, b[k])
    ensures forall k :: 0 <= k < |a + b| ==> Located(content, (a + b)[k])
  {
    forall k | 0 <= k < |a + b| ensures Located(content, (a + b)[k]) {
      if k >= |a| {
        assert (a + b)[k] == b[k - |a|];
      }
    }
  }

  /** Content is reported clean exactly when no pattern of the table matches anywhere. */
  lemma {:induction false} CheckWithEmpty(table: seq<BadPattern>, content: string)
    ensures CheckWith(table, content) == [] <==>
      forall t, j :: 0 <= t < |table| && 0 <= j < |content| ==> MatchLength(table[t], content, j) == 0
  {
    if |table| > 0 {
      FindAllEmpty(table[0], content, 0);
      CheckWithEmpty(table[1..], content);
      var first := FindAll(table[0], content, 0);
      var rest := CheckWith(table[1..], content);
      assert CheckWith(table, content) == first + rest;
      assert forall t :: 1 <= t < |table| ==> table[t] == table[1..][t - 1];
      if forall t, j :: 0 <= t < |table| && 0 <= j < |content| ==> MatchLength(table[t], content, j) == 0 {
        assert forall j :: 0 <= j < |content| ==> MatchLength(table[0], content, j) == 0;
        assert first == [];
        assert rest == [];
      }
    }
  }

  /** Every issue a pattern of the table finds is in the combined report. */
  lemma {:induction false} CheckWithIncludes(table: seq<BadPattern>, content: string, t: nat, k: nat)
    requires t < |table| && k < |FindAll(table[t], content, 0)|
    ensures FindAll(table[t], content, 0)[k] in CheckWith(table, content)
  {
    var first := FindAll(table[0], content, 0);
    var rest := CheckWith(table[1..], content);
    assert CheckWith(table, content) == first + rest;
    if t == 0 {
      assert first[k] in first;
    } else {
      assert table[t] == table[1..][t - 1];
      CheckWithIncludes(table[1..], content, t - 1, k);
    }
  }

  /** `check_file` on the file's content. */
  function CheckContent(content: string): (r: seq<Issue>)
    ensures forall k :: 0 <= k < |r| ==> Located(content, r[k])
  {
    CheckWith(BadPatterns, content)
  }

  /** The issues come grouped by pattern, in table order. */
  lemma CheckContentGroupsByPattern(content: string)
    ensures CheckContent(content) ==
      FindAll(BadPatterns[0], content, 0) + FindAll(BadPatterns[1], content, 0)
      + FindAll(BadPatterns[2], content, 0) + FindAll(BadPatterns[3], content, 0)
  {
    var b := BadPatterns;
    assert b[1..][1..][1..][1..] == [];
    assert CheckWith(b[1..][1..][1..], content) == FindAll(b[3], content, 0);
    assert CheckWith(b[1..][1..], content) == FindAll(b[2], content, 0) + FindAll(b[3], content, 0);
    assert CheckWith(b[1..], content) == FindAll(b[1], content, 0) + CheckWith(b[1..][1..], content);
  }

  // ---------------------------------------------------------------------------
  // Properties of the individual patterns
  // ---------------------------------------------------------------------------

  /** Any opening bracket, whitespace, then any closing bracket is an empty-bracket
      match, mixed pairs such as "(]" and "[ )" included. */
  lemma EmptyBracketsMatch(s: string, i: nat, j: nat)
    requires i < j < |s|
    requires IsOpeningBracket(s[i]) && IsClosingBracket(s[j])
    requires forall m :: i < m < j ==> IsSpace(s[m])
    ensures MatchLength(EmptyBrackets, s, i) == j - i + 1
  {
    assert SpaceRun(s, i + 1) == j - i - 1;
  }

  /** Each occurrence of one of the table's two literals ("현존재쌤", "(cid:127)") lies
      inside a reported issue whose text is that literal. */
  lemma CheckContentReportsLiteral(content: string, t: nat, j: nat)
    requires t < 2 && OccursAt(content, BadPatterns[t].text, j)
    ensures exists k ::
              && 0 <= k < |CheckContent(content)|
              && Covers(CheckContent(content)[k], j)
              && CheckContent(content)[k].text == BadPatterns[t].text
  {
    var p := BadPatterns[t];
    assert p.Literal? && |p.text| > 0;
    var k := FindAllCovers(p, content, 0, j);
    FindAllSound(p, content, 0, k);
    var issue := FindAll(p, content, 0)[k];
    assert issue.text == p.text;
    CheckWithIncludes(BadPatterns, content, t, k);
    var r := CheckContent(content);
    var m :| 0 <= m < |r| && r[m] == issue;
    assert Covers(r[m], j) && r[m].text == p.text;
  }

  lemma MixedBracketsExample()
    ensures FindAll(EmptyBrackets, "(]", 0) == [Issue(0, "(]")]
  {
    EmptyBracketsMatch("(]", 0, 1);
    assert "(]"[0..2] == "(]";
  }

  /** A run of exactly two equal syllables is never matched by the table's entry. */
  lemma DoubledSyllableNotMatched(s: string, i: nat)
    requires i + 1 < |s| && s[i + 1] == s[i]
    requires i + 2 == |s| || s[i + 2] != s[i]
    ensures MatchLength(RepeatedSyllable(2), s, i) == 0
  {
    assert CharRun(s, i, s[i]) == 2 by {
      assert CharRun(s, i + 1, s[i]) == 1 + CharRun(s, i + 2, s[i]);
    }
  }

  lemma NoStutterNameIn(s: string)
    requires s == "현현존존"
    ensures forall j :: 0 <= j < |s| ==> MatchLength(BadPatterns[0], s, j) == 0
  {
    assert s[0..4][1] != "현존재쌤"[1];
  }

  lemma NoBrokenCidIn(s: string)
    requires s == "현현존존"
    ensures forall j :: 0 <= j < |s| ==> MatchLength(BadPatterns[1], s, j) == 0
  {
  }

  lemma NoBracketsIn(s: string)
    requires s == "현현존존"
    ensures forall j :: 0 <= j < |s| ==> MatchLength(BadPatterns[2], s, j) == 0
  {
  }

  lemma NoTripledSyllableIn(s: string)
    requires s == "현현존존"
    ensures forall j :: 0 <= j < |s| ==> MatchLength(BadPatterns[3], s, j) == 0
  {
    DoubledSyllableNotMatched(s, 0);
    DoubledSyllableNotMatched(s, 2);
    assert CharRun(s, 1, s[1]) == 1 && CharRun(s, 3, s[3]) == 1;
  }

  /** The comment's own example "현현존존" is reported clean: each syllable is
      doubled, not tripled, and no other pattern occurs. */
  lemma DoubledSyllablesPassUnflagged()
    ensures CheckContent("현현존존") == []
  {
    var s := "현현존존";
    NoStutterNameIn(s);
    NoBrokenCidIn(s);
    NoBracketsIn(s);
    NoTripledSyllableIn(s);
    forall t, j | 0 <= t < |BadPatterns| && 0 <= j < |s| ensures MatchLength(BadPatterns[t], s, j) == 0 {
    }
    CheckWithEmpty(BadPatterns, s);
  }

  // ---------------------------------------------------------------------------
  // The table its comment describes
  // ---------------------------------------------------------------------------

  /** `BAD_PATTERNS` with the fourth entry as `([가-힣])\1+`, which flags a syllable
      repeated twice or more, as the comment ("2자 이상 반복") says. */
  const IntendedBadPatterns: seq<BadPattern> :=
    [Literal("현존재쌤"), Literal("(cid:127)"), EmptyBrackets, RepeatedSyllable(1)]

  function CheckContentIntended(content: string): (r: seq<Issue>)
    ensures forall k :: 0 <= k < |r| ==> Located(content, r[k])
  {
    CheckWith(IntendedBadPatterns, content)
  }

  /** With the intended table, every pair of adjacent equal syllables lies inside a
      single reported issue. */
  lemma IntendedFlagsEveryDoubledSyllable(s: string, i: nat)
    requires i + 1 < |s| && IsHangulSyllable(s[i]) && s[i + 1] == s[i]
    ensures exists k :: (0 <= k < |FindAll(RepeatedSyllable(1), s, 0)|
      && Covers(FindAll(RepeatedSyllable(1), s, 0)[k], i)
      && Covers(FindAll(RepeatedSyllable(1), s, 0)[k], i + 1))
  {
    var p := RepeatedSyllable(1);
    assert CharRun(s, i, s[i]) >= 2 by {
      assert CharRun(s, i, s[i]) == 1 + CharRun(s, i + 1, s[i]);
    }
    var k := FindAllCovers(p, s, 0, i);
    var r := FindAll(p, s, 0);
    var pos := r[k].pos;
    var n := |r[k].text|;
    FindAllSound(p, s, 0, k);
    assert n == CharRun(s, pos, s[pos]);
    assert s[i] == s[pos];
    assert i + 1 < pos + n;
  }

  /** Whatever the rest of the text, the intended check reports an issue containing
      any two adjacent equal syllables. */
  lemma IntendedCheckFlagsEveryDoubledSyllable(s: string, i: nat)
    requires i + 1 < |s| && IsHangulSyllable(s[i]) && s[i + 1] == s[i]
    ensures exists issue :: issue in CheckContentIntended(s) && Covers(issue, i) && Covers(issue, i + 1)
  {
    IntendedFlagsEveryDoubledSyllable(s, i);
    var r := FindAll(RepeatedSyllable(1), s, 0);
    var k :| 0 <= k < |r| && Covers(r[k], i) && Covers(r[k], i + 1);
    assert IntendedBadPatterns[3] == RepeatedSyllable(1);
    CheckWithIncludes(IntendedBadPatterns, s, 3, k);
  }

  /** On a run of three or more the two tables' last entries report the same match. */
  lemma IntendedTableAgreesOnLongRuns(s: string, i: nat)
    requires i < |s|
    ensures MatchLength(RepeatedSyllable(2), s, i) > 0 ==>
      MatchLength(RepeatedSyllable(1), s, i) == MatchLength(RepeatedSyllable(2), s, i)
  {
  }

  /** The intended table flags the comment's own example twice, once per doubled syllable. */
  lemma IntendedFlagsDoubledSyllables()
    ensures FindAll(RepeatedSyllable(1), "현현존존", 0) == [Issue(0, "현현"), Issue(2, "존존")]
  {
    var s := "현현존존";
    var p := RepeatedSyllable(1);
    assert CharRun(s, 0, s[0]) == 2 by {
      assert CharRun(s, 1, s[0]) == 1 + CharRun(s, 2, s[0]);
    }
    assert CharRun(s, 2, s[2]) == 2 by {
      assert CharRun(s, 3, s[2]) == 1 + CharRun(s, 4, s[2]);
    }
    assert s[0..2] == "현현" && s[2..4] == "존존";
  }
}

=== FILE: text.dfy ===
/**
 Character classes and the handful of Python `str` operations the extractor
 relies on (`strip`, `join`, `split`, `splitlines`, substring search), written
 as pure functions over `seq<char>` with the facts the rest of the model needs.
 */
module Text {

  // ---------------------------------------------------------------------------
  // Character classes
  // ---------------------------------------------------------------------------

  /** Python's `str.isspace()`, which is also what `\s` and `str.strip()` use. */
  predicate IsSpace(c: char) {
    || ('\t' <= c <= '\r')
    || ('\U{001C}' <= c <= '\U{001F}')
    || c == ' '
    || c == '\U{0085}' || c == '\U{00A0}' || c == '\U{1680}'
    || ('\U{2000}' <= c <= '\U{200A}')
    || c == '\U{2028}' || c == '\U{2029}' || c == '\U{202F}' || c == '\U{205F}'
    || c == '\U{3000}'
  }

  /** The digit class `\d`, restricted to ASCII decimal digits. */
  predicate IsDigit(c: char) {
    '0' <= c <= '9'
  }

  /** The length of the run of digits (`\d+`, `[0-9]+`) at the start of `s`. */
  function LeadingDigits(s: string): (n: nat)
    ensures n <= |s|
    ensures forall i :: 0 <= i < n ==> IsDigit(s[i])
    ensures n < |s| ==> !IsDigit(s[n])
  {
    if |s| > 0 && IsDigit(s[0]) then 1 + LeadingDigits(s[1..]) else 0
  }

  /** Digits followed by a non-digit: the leading digit run is exactly the digits. */
  lemma {:induction false} LeadingDigitsOfToken(digits: string, rest: string)
    requires forall i :: 0 <= i < |digits| ==> IsDigit(digits[i])
    requires |rest| == 0 || !IsDigit(rest[0])
    ensures LeadingDigits(digits + rest) == |digits|
  {
    if |digits| > 0 {
      assert (digits + rest)[1..] == digits[1..] + rest;
      LeadingDigitsOfToken(digits[1..], rest);
    }
  }

  /** A precomposed Hangul syllable: the class `[가-힣]`. */
  predicate IsHangulSyllable(c: char) {
    '가' <= c <= '힣'
  }

  /** One of the circled numerals ① ② ③ ④ ⑤ that mark answer choices. */
  predicate IsCircledNumeral(c: char) {
    '①' <= c <= '⑤'
  }

  /** Python's `str.isalnum()`, approximated by ASCII letters and digits,
      Hangul syllables and Hangul compatibility jamo. */
  predicate IsAlnum(c: char) {
    || IsDigit(c)
    || ('a' <= c <= 'z')
    || ('A' <= c <= 'Z')
    || IsHangulSyllable(c)
    || ('\U{3131}' <= c <= '\U{318E}')
  }

  /** The line boundaries recognised by Python's `str.splitlines()`. */
  predicate IsLineBreak(c: char) {
    || c == '\n' || c == '\r' || c == '\U{000B}' || c == '\U{000C}'
    || ('\U{001C}' <= c <= '\U{001E}')
    || c == '\U{0085}' || c == '\U{2028}' || c == '\U{2029}'
  }

  // ---------------------------------------------------------------------------
  // strip
  // ---------------------------------------------------------------------------

  /** Neither end is whitespace: exactly the strings `str.strip()` leaves alone. */
  predicate IsStripped(s: string) {
    |s| == 0 || (!IsSpace(s[0]) && !IsSpace(s[|s| - 1]))
  }

  /** `str.lstrip()`: the longest suffix that does not start with whitespace. */
  function TrimLeft(s: string): (r: string)
    ensures |r| <= |s| && r == s[|s| - |r|..]
    ensures forall i :: 0 <= i < |s| - |r| ==> IsSpace(s[i])
    ensures |r| == 0 || !IsSpace(r[0])
  {
    if |s| > 0 && IsSpace(s[0]) then TrimLeft(s[1..]) else s
  }

  /** `str.rstrip()`: the longest prefix that does not end with whitespace. */
  function TrimRight(s: string): (r: string)
    ensures |r| <= |s| && r == s[..|r|]
    ensures forall i :: |r| <= i < |s| ==> IsSpace(s[i])
    ensures |r| == 0 || !IsSpace(r[|r| - 1])
  {
    if |s| > 0 && IsSpace(s[|s| - 1]) then TrimRight(s[..|s| - 1]) else s
  }

  /** Where `Strip(s)` begins inside `s`: the number of leading whitespace characters removed. */
  function StripStart(s: string): nat
    ensures StripStart(s) <= |s|
  {
    |s| - |TrimLeft(s)|
  }

  /** Python's `str.strip()`: the slice of `s` left after removing whitespace at both ends. */
  function Strip(s: string): (r: string)
    ensures IsStripped(r)
    ensures StripStart(s) + |r| <= |s| && r == s[StripStart(s)..StripStart(s) + |r|]
    ensures forall i :: 0 <= i < StripStart(s) ==> IsSpace(s[i])
    ensures forall i :: StripStart(s) + |r| <= i < |s| ==> IsSpace(s[i])
  {
    var l := TrimLeft(s);
    assert l == s[StripStart(s)..];
    TrimRight(l)
  }

  /** Stripping leaves a string alone exactly when neither end is whitespace. */
  lemma StripFixpoint(s: string)
    ensures Strip(s) == s <==> IsStripped(s)
  {
    if IsStripped(s) {
      assert |TrimLeft(s)| == |s|;
    }
  }

  // ---------------------------------------------------------------------------
  // Substrings
  // ---------------------------------------------------------------------------

  /** `pat` occurs in `s` starting at index `i`. */
  predicate OccursAt(s: string, pat: string, i: int) {
    0 <= i && i + |pat| <= |s| && s[i..i + |pat|] == pat
  }

  /** Python's `pat in s`. */
  predicate Contains(s: string, pat: string) {
    exists i :: 0 <= i <= |s| && OccursAt(s, pat, i)
  }

  /** Some pattern of `pats` occurs in `s`: the regex alternation `p0|p1|…` over literals. */
  predicate ContainsAny(s: string, pats: seq<string>) {
    exists j :: 0 <= j < |pats| && Contains(s, pats[j])
  }

  /** Some character of `s` is one of the circled numerals ①–⑤ (the regex `①|②|③|④|⑤`). */
  predicate HasCircledNumeral(s: string) {
    exists i :: 0 <= i < |s| && IsCircledNumeral(s[i])
  }

  /** `a` can be obtained from `b` by deleting characters. */
  predicate IsSubsequence<T(==)>(a: seq<T>, b: seq<T>)
    decreases |b|
  {
    if |a| == 0 then true
    else if |b| == 0 then false
    else if a[0] == b[0] then IsSubsequence(a[1..], b[1..])
    else IsSubsequence(a, b[1..])
  }

  /** Dropping the first element of `b` keeps `a` a subsequence of what is left only
      if `a` was one already; conversely a subsequence of `b[1..]` is one of `b`. */
  lemma {:induction false} SubsequenceOfTail<T>(a: seq<T>, b: seq<T>)
    requires |b| > 0 && IsSubsequence(a, b[1..])
    ensures IsSubsequence(a, b)
    decreases |b|, |a|
  {
    if |a| > 0 && a[0] == b[0] {
      SubsequenceDropHead(a, b[1..]);
    }
  }

  lemma {:induction false} SubsequenceDropHead<T>(a: seq<T>, b: seq<T>)
    requires |a| > 0 && IsSubsequence(a, b)
    ensures IsSubsequence(a[1..], b)
    decreases |b|, |a|
  {
    if a[0] == b[0] {
      if |a| > 1 {
        SubsequenceOfTail(a[1..], b);
      }
    } else {
      SubsequenceDropHead(a, b[1..]);
      if |a| > 1 {
        SubsequenceOfTail(a[1..], b);
      }
    }
  }

  /** A subsequence of a suffix of `b` is a subsequence of `b`. */
  lemma {:induction false} SubsequenceOfSuffix<T>(a: seq<T>, b: seq<T>, n: nat)
    requires n <= |b| && IsSubsequence(a, b[n..])
    ensures IsSubsequence(a, b)
  {
    if n > 0 {
      assert b[n - 1..][1..] == b[n..];
      SubsequenceOfTail(a, b[n - 1..]);
      SubsequenceOfSuffix(a, b, n - 1);
    }
  }

  // ---------------------------------------------------------------------------
  // join and split
  // ---------------------------------------------------------------------------

  /** Python's `sep.join(parts)` for a one-character separator. */
  function JoinWith(sep: char, parts: seq<string>): (r: string)
    ensures |parts| == 0 ==> r == []
  {
    if |parts| == 0 then []
    else if |parts| == 1 then parts[0]
    else parts[0] + [sep] + JoinWith(sep, parts[1..])
  }

  /** Python's `s.split(sep)`: the pieces between occurrences of `sep`; never empty. */
  function SplitOn(s: string, sep: char): (r: seq<string>)
    ensures |r| >= 1
    ensures forall i :: 0 <= i < |r| ==> sep !in r[i]
  {
    if |s| == 0 then [[]]
    else
      var rest := SplitOn(s[1..], sep);
      if s[0] == sep then [[]] + rest
      else [[s[0]] + rest[0]] + rest[1..]
  }

  /** Concatenation of a sequence of sequences (Python's `"".join` / `sum(xs, [])`). */
  function Flatten<T>(xss: seq<seq<T>>): seq<T> {
    if |xss| == 0 then [] else xss[0] + Flatten(xss[1..])
  }

  lemma {:induction false} FlattenSnoc<T>(xss: seq<seq<T>>, xs: seq<T>)
    ensures Flatten(xss + [xs]) == Flatten(xss) + xs
  {
    if |xss| == 0 {
      assert xss + [xs] == [xs];
    } else {
      assert (xss + [xs])[1..] == xss[1..] + [xs];
      FlattenSnoc(xss[1..], xs);
    }
  }

  lemma {:induction false} SplitWithoutSeparator(s: string, sep: char)
    requires sep !in s
    ensures SplitOn(s, sep) == [s]
  {
    if |s| > 0 {
      SplitWithoutSeparator(s[1..], sep);
      assert [s[0]] + s[1..] == s;
    }
  }

  lemma {:induction false} SplitAtSeparator(a: string, b: string, sep: char)
    requires sep !in a
    ensures SplitOn(a + [sep] + b, sep) == [a] + SplitOn(b, sep)
  {
    var s := a + [sep] + b;
    if |a| == 0 {
      assert s[1..] == b;
    } else {
      assert s[1..] == a[1..] + [sep] + b;
      SplitAtSeparator(a[1..], b, sep);
      assert [a[0]] + a[1..] == a;
    }
  }

  /** Splitting a joined list on its separator gives the list back, provided no
      part contains the separator. */
  lemma {:induction false} SplitJoinRoundTrip(sep: char, parts: seq<string>)
    requires |parts| >= 1
    requires forall i :: 0 <= i < |parts| ==> sep !in parts[i]
    ensures SplitOn(JoinWith(sep, parts), sep) == parts
  {
    if |parts| == 1 {
      SplitWithoutSeparator(parts[0], sep);
    } else {
      SplitJoinRoundTrip(sep, parts[1..]);
      SplitAtSeparator(parts[0], JoinWith(sep, parts[1..]), sep);
      assert [parts[0]] + parts[1..] == parts;
    }
  }

  /** Joining the pieces of a split with the same separator gives the string back. */
  lemma {:induction false} JoinSplitRoundTrip(sep: char, s: string)
    ensures JoinWith(sep, SplitOn(s, sep)) == s
  {
    if |s| > 0 {
      var rest := SplitOn(s[1..], sep);
      JoinSplitRoundTrip(sep, s[1..]);
      if s[0] == sep {
        assert ([[]] + rest)[1..] == rest;
        assert s == [sep] + s[1..];
      } else {
        var parts := [[s[0]] + rest[0]] + rest[1..];
        if |rest| == 1 {
          assert JoinWith(sep, parts) == [s[0]] + rest[0];
        } else {
          assert parts[1..] == rest[1..];
          assert JoinWith(sep, rest) == rest[0] + [sep] + JoinWith(sep, rest[1..]);
        }
        assert s == [s[0]] + s[1..];
      }
    }
  }

  // ---------------------------------------------------------------------------
  // splitlines
  // ---------------------------------------------------------------------------

  /** No character of `s` is a line boundary. */
  predicate IsSingleLine(s: string) {
    forall i :: 0 <= i < |s| ==> !IsLineBreak(s[i])
  }

  /** `s` with every line boundary character deleted. */
  function DropLineBreaks(s: string): (r: string)
    ensures IsSingleLine(r)
    ensures |r| <= |s|
  {
    if |s| == 0 then []
    else if IsLineBreak(s[0]) then DropLineBreaks(s[1..])
    else [s[0]] + DropLineBreaks(s[1..])
  }

  /** The scan behind `SplitLines`: `acc` is the line read so far. `\r\n` is one boundary. */
  function LinesFrom(s: string, acc: string): (r: seq<string>)
    requires IsSingleLine(acc)
    ensures forall i :: 0 <= i < |r| ==> IsSingleLine(r[i])
    ensures Flatten(r) == acc + DropLineBreaks(s)
    decreases |s|
  {
    if |s| == 0 then
      if acc == [] then [] else [acc]
    else if IsLineBreak(s[0]) then
      var rest := if s[0] == '\r' && |s| > 1 && s[1] == '\n' then s[2..] else s[1..];
      var r := [acc] + LinesFrom(rest, []);
      assert DropLineBreaks(s[1..]) == DropLineBreaks(rest) by {
        if |s| > 1 && s[0] == '\r' && s[1] == '\n' {
          assert s[1..][1..] == rest;
        }
      }
      r
    else
      var r := LinesFrom(s[1..], acc + [s[0]]);
      assert acc + DropLineBreaks(s) == (acc + [s[0]]) + DropLineBreaks(s[1..]);
      r
  }

  /** Python's `str.splitlines()`: lines without their boundaries; a final boundary
      does not start an extra empty line. No line contains a boundary, and together
      the lines hold every other character of `s` in order. */
  function SplitLines(s: string): (r: seq<string>)
    ensures forall i :: 0 <= i < |r| ==> IsSingleLine(r[i])
    ensures Flatten(r) == DropLineBreaks(s)
  {
    LinesFrom(s, [])
  }

  /** A text without line boundaries is one line, or no line at all when it is empty. */
  lemma {:induction false} LinesFromSingleLine(s: string, acc: string)
    requires IsSingleLine(acc) && IsSingleLine(s)
    ensures LinesFrom(s, acc) == if acc + s == [] then [] else [acc + s]
    decreases |s|
  {
    if |s| > 0 {
      assert acc + s == (acc + [s[0]]) + s[1..];
      LinesFromSingleLine(s[1..], acc + [s[0]]);
    } else {
      assert acc + s == acc;
    }
  }

  /** A boundary of `splitlines()`: `"\r\n"`, or one boundary character that is not a
      `'\r'` directly followed by `'\n'`. */
  predicate IsBoundary(brk: string, after: string) {
    || brk == "\r\n"
    || (|brk| == 1 && IsLineBreak(brk[0]) && (brk[0] == '\r' ==> |after| == 0 || after[0] != '\n'))
  }

  lemma {:induction false} LinesFromBoundary(a: string, brk: string, b: string, acc: string)
    requires IsSingleLine(acc) && IsSingleLine(a) && IsBoundary(brk, b)
    ensures LinesFrom(a + brk + b, acc) == [acc + a] + LinesFrom(b, [])
    decreases |a|
  {
    var s := a + brk + b;
    if |a| == 0 {
      assert s == brk + b;
      assert acc + a == acc;
      if brk == "\r\n" {
        assert s[2..] == b;
      } else {
        assert s[1..] == b;
      }
    } else {
      assert s[1..] == a[1..] + brk + b;
      assert acc + a == (acc + [a[0]]) + a[1..];
      LinesFromBoundary(a[1..], brk, b, acc + [a[0]]);
    }
  }

  /** Where `splitlines()` breaks: a text without boundaries is a single line (none if
      empty), and a boundary ends the line before it, `"\r\n"` counting once. With
      these two facts `SplitLines` is fixed on every input. */
  lemma SplitLinesOfSingleLine(s: string)
    requires IsSingleLine(s)
    ensures SplitLines(s) == if s == [] then [] else [s]
  {
    LinesFromSingleLine(s, []);
    assert [] + s == s;
  }

  lemma SplitLinesAtBoundary(a: string, brk: string, b: string)
    requires IsSingleLine(a) && IsBoundary(brk, b)
    ensures SplitLines(a + brk + b) == [a] + SplitLines(b)
  {
    LinesFromBoundary(a, brk, b, []);
    assert [] + a == a;
  }

  /** `splitlines()` inverts `"\n".join` on single lines whose last line is not empty. */
  lemma {:induction false} SplitLinesOfJoin(ls: seq<string>)
    requires |ls| >= 1 && ls[|ls| - 1] != []
    requires forall i :: 0 <= i < |ls| ==> IsSingleLine(ls[i])
    ensures SplitLines(JoinWith('\n', ls)) == ls
  {
    if |ls| == 1 {
      SplitLinesOfSingleLine(ls[0]);
    } else {
      var rest := JoinWith('\n', ls[1..]);
      SplitLinesAtBoundary(ls[0], "\n", rest);
      assert ls[0] + "\n" + rest == ls[0] + ['\n'] + rest;
      SplitLinesOfJoin(ls[1..]);
      assert [ls[0]] + ls[1..] == ls;
    }
  }
}

=== FILE: wrappers.dfy ===
/** Python's `None`-or-value, used for every optional field and result of the model. */
module Wrappers {

  datatype Option<+T> = None | Some(value: T) {

    /** The value, or `default` when this is `None`. */
    function GetOr(default: T): T {
      match this
      case Some(v) => v
      case None => default
    }
  }

  /** The values of the `Some` entries of `os`, in order. */
  function Values<T>(os: seq<Option<T>>): (r: seq<T>)
    ensures |r| <= |os|
    ensures |r| == |os| <==> forall j :: 0 <= j < |os| ==> os[j].Some?
    ensures forall i :: 0 <= i < |r| ==> exists j :: 0 <= j < |os| && os[j] == Some(r[i])
  {
    if |os| == 0 then []
    else
      var rest := Values(os[1..]);
      assert forall j :: 0 < j < |os| ==> os[j] == os[1..][j - 1];
      if os[0].Some? then
        var r := [os[0].value] + rest;
        assert forall i :: 0 < i < |r| ==> r[i] == rest[i - 1];
        r
      else
        rest
  }

  lemma {:induction false} ValuesAppend<T>(a: seq<Option<T>>, b: seq<Option<T>>)
    ensures Values(a + b) == Values(a) + Values(b)
  {
    if |a| == 0 {
      assert a + b == b;
    } else {
      assert (a + b)[1..] == a[1..] + b;
      ValuesAppend(a[1..], b);
    }
  }

  /** When no entry is `None`, the values are the entries' contents, position by position. */
  lemma {:induction false} ValuesAllPresent<T>(os: seq<Option<T>>)
    requires forall j :: 0 <= j < |os| ==> os[j].Some?
    ensures |Values(os)| == |os|
    ensures forall i :: 0 <= i < |os| ==> Values(os)[i] == os[i].value
  {
    if |os| > 0 {
      ValuesAllPresent(os[1..]);
      assert Values(os) == [os[0].value] + Values(os[1..]);
    }
  }
}
